=== FILE: README.md ===
# hacky-stack decision rules in Dafny

This project models the deterministic core of hacky-stack. hacky-stack is a Next.js application that manages applications and their environments. The model covers:

- **Environment rules.** These are the environment name validator, the OWNER/EDITOR modify gate, the 10-environment cap and the delete guard for attached resources. They also cover the client-side environment list transitions and the error and toast classification of `useEnvironments`.
- **Application list and creation endpoint.** `GET /api/applications` returns the caller's member applications, newest `updatedAt` first, each with the caller's role and the resource counts. `POST /api/applications` requires a string name and creates the application with its creator as the single OWNER. The database is an abstract relation of applications, memberships and child rows.
- **Client pagination state.** `useApplications` covers `hasMore`, replace versus append, the bounded retry with linear delay, `loadMore`, `refresh`, and the prepend / replace-by-id / filter-by-id list updates.
- **Sign-in allowlist.** This is `isAuthorizedEmail` and the `signIn`, `session` and `jwt` callbacks.
- **Small text and UI state machines.** These are JavaScript `trim`, the application-creation dialog, the `EditableText` editor, and the card's `truncateText`, description fallback and delete action.

Each asynchronous handler is split into two pure functions:

- a start transition, which holds the validation and says which request is issued;
- a completion transition, which takes the awaited outcome as a `Settled` value (resolved, or threw an Error or another value).

React state setters are record updates. Callbacks such as `onClose` and `onDelete` become returned values.

Modules, one per source file, plus shared helpers:

| module | file | models |
|---|---|---|
| `Wrappers` | wrappers.dfy | `Option` and JavaScript string truthiness |
| `Text` | text.dfy | `trim`, `includes`, decimal rendering of naturals |
| `Http` | http.dfy | fetch replies, thrown values, `err instanceof Error ? err.message : …` |
| `ListOps` | list_ops.dfy | append, prepend, replace-by-id and remove-by-id on client lists |
| `ApplicationTypes` | application_types.dfy | `Application`, `ApplicationRole` |
| `EnvironmentTypes` | environment_types.dfy | `Environment`, `EnvironmentWithCounts`, the create and update inputs and their JSON bodies |
| `EnvironmentCreateModal` | environment_create_modal.dfy | `validateName`, `handleSubmit` |
| `EnvironmentList` | environment_list.dfy | `canModify`, `canCreate`, what the list shows |
| `EnvironmentDeleteModal` | environment_delete_modal.dfy | `hasResources`, `handleDelete`, button state, pluralisation |
| `UseEnvironments` | use_environments.dfy | the `useEnvironments` hook |
| `ApplicationsRoute` | applications_route.dfy | `GET` and `POST /api/applications` |
| `UseApplications` | use_applications.dfy | the `useApplications` hook |
| `AuthConfig` | auth_config.dfy | the allowlist and the NextAuth callbacks |
| `CreateApplicationModal` | create_application_modal.dfy | the application creation dialog |
| `EditableText` | editable_text.dfy | the inline editor |
| `ApplicationCard` | application_card.dfy | the application card |

## Model

| member | source | states |
|---|---|---|
| Text.Trim | src/components/create-application-modal.tsx:33 | The result is the input with its leading and trailing whitespace removed. The input splits as all-whitespace + result + all-whitespace, and the result neither starts nor ends with whitespace. It is empty exactly when the input is all ECMAScript whitespace. |
| Text.TrimIdempotent | src/components/ui/editable-text.tsx:55 | Trimming a trimmed string changes nothing. |
| Text.ContainsIffOccurs | src/hooks/use-environments.ts:150 | `includes` holds exactly when the needle occurs at some index. |
| Text.ContainsInfix | src/hooks/use-environments.ts:150 | Any message of the form before + needle + after contains the needle. |
| Text.NatToString | src/components/environment-delete-modal.tsx:40 | A template-rendered count is a non-empty run of digits with no leading zero. |
| Text.NatToStringRoundTrip | src/components/environment-delete-modal.tsx:40 | Reading back the digits of a rendered count gives the count. |
| Text.NatToStringInjective | src/components/environment-delete-modal.tsx:40 | Different counts render differently. |
| Text.DigitRunUnique | src/components/environment-delete-modal.tsx:40 | A digit run followed by a non-digit splits the text in only one way. |
| Http.ServerMessage | src/hooks/use-environments.ts:59 | The thrown message is the server's `error` field when it is a non-empty string, and the fallback otherwise. |
| Http.MessageOr | src/hooks/use-environments.ts:72 | An Error yields its message; any other thrown value yields the fallback. |
| ListOps.Append | src/hooks/use-environments.ts:63 | The new entry comes last and earlier entries are unchanged. |
| ListOps.Prepend | src/hooks/use-applications.ts:111 | The new entry comes first and the rest follow unchanged. |
| ListOps.ReplaceById | src/hooks/use-environments.ts:101-103 | Exactly the entries with the id become the new value. The others keep their value and position. The length is unchanged. |
| ListOps.RemoveById | src/hooks/use-environments.ts:137 | No entry with the id remains. Every other entry keeps its multiplicity. The result is an order-preserving subsequence. |
| ListOps.RemoveAbsent | src/hooks/use-applications.ts:165 | Filtering an id that is not present leaves the list unchanged. |
| ListOps.RemoveIdempotent | src/hooks/use-applications.ts:165 | Filtering the same id twice is the same as filtering it once. |
| ListOps.ReplaceAbsent | src/hooks/use-applications.ts:138-144 | Replacing an id that is not present leaves the list unchanged. |
| ListOps.RemoveUndoesAppend | src/hooks/use-environments.ts:63 | Appending an entry with a fresh id and then filtering that id restores the list. |
| ListOps.RemoveUndoesPrepend | src/hooks/use-applications.ts:111 | Prepending an entry with a fresh id and then filtering that id restores the list. |
| ListOps.RemoveAfterReplace | src/hooks/use-applications.ts:165 | Filtering an id after replacing it is the same as filtering it directly. |
| EnvironmentTypes.CreateBody | src/types/environment.ts:17-20 | The create payload always carries `name`. It carries `description` exactly when one is given, and no other key. |
| EnvironmentTypes.UpdateBody | src/types/environment.ts:22-24 | The update payload carries only `description` (or nothing), so it can never change a name. An explicit null is sent as JSON null, and a string as that string. |
| EnvironmentCreateModal.MatchesNamePatternIff | src/components/environment-create-modal.tsx:43 | The pattern `^[a-z0-9_-]+$` matches exactly the non-empty strings of allowed characters. |
| EnvironmentCreateModal.ValidateName | src/components/environment-create-modal.tsx:36-47 | Returns no error exactly when 1 ≤ length ≤ 15 and every character is in a–z, 0–9, `_` or `-`. Empty gives "required", which takes precedence. Too long gives the length message, which precedes the charset message. Otherwise a bad character gives the charset message. |
| EnvironmentCreateModal.ValidateNameExamples | src/components/environment-create-modal.tsx:36-47 | "prod-1" and "prod_db" pass. "Prod" and "prod db" fail on the charset, 16 characters fail on length, and "" is required. |
| EnvironmentCreateModal.EditName | src/components/environment-create-modal.tsx:107-110 | Typing a name replaces it and clears the error. Nothing else changes. |
| EnvironmentCreateModal.OptionalDescription | src/components/environment-create-modal.tsx:64 | An empty description is sent as undefined; any other is sent unchanged. |
| EnvironmentCreateModal.Submit | src/components/environment-create-modal.tsx:49-65 | An invalid name sets the validator's error and issues no request. A valid name is sent untrimmed, with the description normalised, and sets loading. |
| EnvironmentCreateModal.SubmitCompleted | src/components/environment-create-modal.tsx:66-77 | Success clears name and description and closes. Failure keeps the fields, shows an Error's message and stays open. Loading ends in every case. |
| EnvironmentCreateModal.BackdropCloses | src/components/environment-create-modal.tsx:80-84 | A click closes the dialog exactly when it lands on the backdrop itself and nothing is being submitted. A click inside the dialog never closes it. |
| EnvironmentCreateModal.BackdropIgnoredWhileSubmitting | src/components/environment-create-modal.tsx:49-84 | A backdrop click is ignored while a valid submission is in flight, and still closes the dialog after a submit the name check rejected. |
| EnvironmentList.CanModify | src/components/environment-list.tsx:24 | True exactly for OWNER or EDITOR. It is false for VIEWER and for no role. |
| EnvironmentList.CanModifyIsAtLeastEditor | src/components/environment-list.tsx:24 | The modify gate is the same as "role at least EDITOR" in the OWNER > EDITOR > VIEWER order. |
| EnvironmentList.CanCreate | src/components/environment-list.tsx:25 | True exactly for a role with at least EDITOR privilege and fewer than 10 environments. It is never true for VIEWER, for no role, or at the cap. |
| EnvironmentList.LimitNotice | src/components/environment-list.tsx:173 | The limit notice shows exactly when there are 10 or more environments. |
| EnvironmentList.Render | src/components/environment-list.tsx:60-180 | Shows a spinner while loading, then the error, then the empty state when the list is empty, and otherwise the list itself with every row. The empty state's create button appears exactly under the modify gate. Row controls appear exactly under the modify gate, the header create button exactly under the create gate, and the notice exactly at the cap. |
| EnvironmentList.NoRoleCreatesAtTheCap | src/components/environment-list.tsx:173 | With 10 or more environments no role may create, and the list shows the notice without a create button. |
| EnvironmentDeleteModal.HasResources | src/components/environment-delete-modal.tsx:23 | True exactly when a secret or a variable is attached. |
| EnvironmentDeleteModal.CountsTextInjective | src/components/environment-delete-modal.tsx:40 | The counts part of the blocking message determines both counts. |
| EnvironmentDeleteModal.AttachedMessageStatesCounts | src/components/environment-delete-modal.tsx:39-42 | Two blocking messages are equal only for equal counts, so the message states the exact secret and variable counts. |
| EnvironmentDeleteModal.AttachedMessage | src/components/environment-delete-modal.tsx:40 | The blocking message contains "attached resources", so the toast logic calls it out as a conflict. |
| EnvironmentDeleteModal.Open | src/components/environment-delete-modal.tsx:25-28 | Opening clears the error. |
| EnvironmentDeleteModal.HandleDelete | src/components/environment-delete-modal.tsx:38-47 | With resources attached, the counts message is set and no deletion is issued. Otherwise deletion of this environment's id is issued with loading set. |
| EnvironmentDeleteModal.DeleteCompleted | src/components/environment-delete-modal.tsx:47-57 | Success closes. Failure stays open with an Error's message. Loading ends in every case. |
| EnvironmentDeleteModal.DeleteDisabled | src/components/environment-delete-modal.tsx:136 | The button is enabled exactly when not loading and nothing is attached. |
| EnvironmentDeleteModal.Plural | src/components/environment-delete-modal.tsx:102 | The suffix is "s" exactly when the count is not 1. |
| EnvironmentDeleteModal.ResourceSummaryExample | src/components/environment-delete-modal.tsx:102 | One secret and two variables read "1 secret and 2 variables". |
| EnvironmentDeleteModal.ResourceSummaryStatesCounts | src/components/environment-delete-modal.tsx:102 | Two warning summaries are equal only for equal counts, so the summary states both counts exactly. |
| EnvironmentDeleteModal.BackdropCloses | src/components/environment-delete-modal.tsx:60-64 | A click closes the dialog exactly when it lands on the backdrop itself and no delete is running. A click inside the dialog never closes it. |
| EnvironmentDeleteModal.BackdropIgnoredWhileDeleting | src/components/environment-delete-modal.tsx:38-64 | A backdrop click is ignored while the delete runs, and still closes the dialog after the attached-resources guard refused the delete. |
| EnvironmentDeleteModal.DeleteOnlyWhenEnabled | src/components/environment-delete-modal.tsx:136 | When not loading, the handler issues a deletion exactly when the button is enabled. |
| UseEnvironments.BeginFetch | src/hooks/use-environments.ts:18-23 | Does nothing exactly when the application id is empty. Otherwise it sets loading and clears the error. |
| UseEnvironments.FetchCompleted | src/hooks/use-environments.ts:24-42 | A parsed ok reply replaces the list. Any failure keeps the list, sets the error and raises an error toast carrying that message. Loading ends. A non-ok status shows "Failed to fetch environments". A rejected fetch or an unreadable body shows the thrown Error's message, or "Failed to load environments" for a non-Error value. |
| UseEnvironments.ReplyFailure | src/hooks/use-environments.ts:56-60 | No failure exactly for a parsed ok reply. A non-ok reply with a parsed body throws the server's `error` field when present, else the default. An unreadable body throws its parse error, even for a non-ok status, because the body is read before the status check. A rejected fetch throws its own value. |
| UseEnvironments.CreateCompleted | src/hooks/use-environments.ts:46-81 | Success appends the created environment. Failure leaves the list unchanged, raises a toast and rethrows. |
| UseEnvironments.UpdateCompleted | src/hooks/use-environments.ts:84-121 | Success replaces exactly the entries with the id. Failure leaves the list unchanged, raises a toast and rethrows. |
| UseEnvironments.DeleteFailureTitle | src/hooks/use-environments.ts:150-162 | The title is "Cannot delete environment" exactly when the message contains "attached resources", else "Error". |
| UseEnvironments.DeleteCompleted | src/hooks/use-environments.ts:124-165 | Success removes exactly the entries with the id. Failure leaves the list unchanged, raises a titled toast and rethrows. |
| UseEnvironments.NonOkMessage | src/hooks/use-environments.ts:130-134 | A non-ok reply with an `error` field rethrows exactly that text, and the list is unchanged. |
| UseEnvironments.ConflictReplyIsCalledOut | src/hooks/use-environments.ts:150-154 | A server message mentioning attached resources gives the "Cannot delete environment" toast. |
| UseEnvironments.CreateThenDeleteRestores | src/hooks/use-environments.ts:63 | Creating an environment with a fresh id and deleting it restores the list. |
| ApplicationsRoute.RoleOf | src/app/api/applications/route.ts:22-28 | Absent exactly when the user has no membership on the application; otherwise it is the role of one of those memberships. |
| ApplicationsRoute.RoleOfIsTheMembershipRole | src/app/api/applications/route.ts:49 | With unique (user, application) memberships, the reported role is that membership's role. |
| ApplicationsRoute.CountOwned | src/app/api/applications/route.ts:30-36 | One count for every relation, keyed by the owning application: at most all rows, and zero exactly when no row belongs to the application. |
| ApplicationsRoute.CountOwnedIsRowsRemoved | src/app/api/applications/route.ts:50 | The count plus the rows left after removing the application's rows is the whole collection. |
| ApplicationsRoute.Summarize | src/app/api/applications/route.ts:43-51 | An item carries the application's id, name, description and timestamps. Its role is the caller's membership role. Each count is the number of environment, secret or variable rows a removal of the application's rows would take away. |
| ApplicationsRoute.Summaries | src/app/api/applications/route.ts:43-51 | One summary per row, in the rows' order. |
| ApplicationsRoute.CountOwnedAppend | src/app/api/applications/route.ts:78-83 | Adding one row, such as the creator's membership, raises the count by one exactly for its own application. |
| ApplicationsRoute.MemberApplications | src/app/api/applications/route.ts:13-20 | Keeps exactly the applications the user is a member of, with their multiplicities. |
| ApplicationsRoute.InsertByRecency | src/app/api/applications/route.ts:38-40 | Inserting into a list sorted newest-first keeps it sorted and adds exactly that element. |
| ApplicationsRoute.SortByRecency | src/app/api/applications/route.ts:38-40 | The result is ordered by `updatedAt` descending and is a permutation of the input. |
| ApplicationsRoute.CallerId | src/app/api/applications/route.ts:8-11 | A caller exists exactly when the session has a user with a truthy id. |
| ApplicationsRoute.VisibleApplications | src/app/api/applications/route.ts:13-40 | Exactly the caller's member applications, newest first. Each appears as often as it is stored: the result is a permutation of the membership filter. |
| ApplicationsRoute.Listing | src/app/api/applications/route.ts:42-53 | Every item is a member application summarised with the caller's own role and counts. Items are newest first, and every member application appears. There is exactly one item per visible application, in the same order. |
| ApplicationsRoute.ListingHasNoDuplicates | src/app/api/applications/route.ts:13-53 | With unique application ids, no application id is listed twice. |
| ApplicationsRoute.DistinctIdsOfSubMultiset | src/app/api/applications/route.ts:13-20 | Rows drawn without repetition from applications with unique ids have unique ids. |
| ApplicationsRoute.SortKeepsTieOrder | src/app/api/applications/route.ts:38-40 | Two applications updated at the same instant keep their stored order. |
| ApplicationsRoute.Get | src/app/api/applications/route.ts:6-58 | No caller gives 401 before any data access; otherwise 200 with the caller's listing. |
| ApplicationsRoute.Post | src/app/api/applications/route.ts:60-114 | No caller gives 401. A missing, empty or non-string name gives 400 "Name is required" and creates nothing. Otherwise it returns 201, adds the application and one OWNER membership for the caller, and keeps the database well formed. The body reports role OWNER and zero counts, with the description passed through. |
| ApplicationsRoute.NothingOwnedYet | src/app/api/applications/route.ts:94-100 | A fresh application id has no memberships, environments, secrets or variables. |
| ApplicationsRoute.PostKeepsWellFormed | src/app/api/applications/route.ts:74-84 | Adding a fresh application with a membership on it keeps ids unique and references valid. |
| UseApplications.Initial | src/hooks/use-applications.ts:24-29 | The hook starts loading page 1 into an empty list, with more pages assumed and no error. |
| UseApplications.InitialLoad | src/hooks/use-applications.ts:173-175 | The mount fetch of page 1 with reset fills the empty list with the first page. More pages are offered exactly when it holds 6 items. |
| UseApplications.BeginFetch | src/hooks/use-applications.ts:36-39 | Page 1 sets `loading`; later pages set `loadingMore`. |
| UseApplications.RetryDelay | src/hooks/use-applications.ts:46-48 | The first retry waits 1000 ms, and each later retry waits 1000 ms more than the one before (1000, then 2000): a linear delay. |
| UseApplications.StatusMessage | src/hooks/use-applications.ts:51 | Every non-ok status message contains "fetch". |
| UseApplications.StatusMessageNamesStatus | src/hooks/use-applications.ts:51 | Different statuses give different messages, so the message names the status. |
| UseApplications.Caught | src/hooks/use-applications.ts:66-77 | A thrown TypeError or Error mentioning "fetch" is retried while retryCount < 2. The retry is the same page and reset with retryCount + 1, after the linear delay. Otherwise the error is set. The list is unchanged and both loading flags end. |
| UseApplications.ApplyPage | src/hooks/use-applications.ts:57-63 | Page 1 or a reset replaces the list, and later pages append. `hasMore` holds exactly when the page is full. The error clears. |
| UseApplications.FetchCompletedAsWritten | src/hooks/use-applications.ts:36-78 | As written, every non-ok status is retried while retryCount < 2, with the same page and reset, retryCount + 1 and a delay of 1000·(retryCount+1) ms. A failure that is not retried records the status message. A rejected fetch or an unreadable body goes to the catch clause. A parsed page is applied. |
| UseApplications.RulesDifferOnlyOnClientErrors | src/hooks/use-applications.ts:44-51 | The code as written and the corrected rule give different outcomes exactly for a non-ok status below 500 while retries remain. The code as written retries it; the corrected rule does not. |
| UseApplications.AsWrittenRetriesNotFound | src/hooks/use-applications.ts:66-70 | As written, a 404 on the first attempt is retried; the corrected rule does not retry it. |
| UseApplications.AsWrittenRetriesNotFoundTwice | src/hooks/use-applications.ts:44-70 | With three 404 replies, the code as written makes three requests, waiting 1000 and 2000 ms; the corrected rule makes one. |
| UseApplications.FetchCompleted | src/hooks/use-applications.ts:36-78 | Corrected rule (see Findings). A non-ok reply is retried exactly when its status is ≥ 500 and retryCount < 2, with the next call and linear delay. Other failures set the error. A rejected fetch or an unreadable body goes to the catch clause. A parsed ok reply applies the page. |
| UseApplications.Complete | src/hooks/use-applications.ts:36-78 | Under the rule as written and under the corrected rule, a retry happens only while retryCount < 2, with retryCount + 1 and a delay of 1000·(retryCount+1) ms. |
| UseApplications.RunFetch | src/hooks/use-applications.ts:44-51 | Under either rule, a run from retryCount r makes at most 3 − r attempts, and its k-th delay is 1000·(r+k+1) ms. |
| UseApplications.AtMostThreeAttempts | src/hooks/use-applications.ts:44-51 | Both as written and under the corrected rule, a fetch makes at most three attempts, waiting 1000 and then 2000 ms. |
| UseApplications.LoadMore | src/hooks/use-applications.ts:80-86 | Does nothing while a further page is loading or when there is no more. Otherwise it advances the page, sets `loadingMore` and fetches exactly that page. Nothing else in the state changes. |
| UseApplications.LoadMoreOnceInFlight | src/hooks/use-applications.ts:36-86 | After one `loadMore` starts a fetch, a second one does nothing until it settles, so the same page is never requested twice. |
| UseApplications.Refresh | src/hooks/use-applications.ts:88-91 | Resets the page to 1, sets `loading` and fetches page 1 with reset. The list, the error, `hasMore` and `loadingMore` are left as they were. |
| UseApplications.RefreshReplaces | src/hooks/use-applications.ts:88-91 | The page a refresh fetches replaces the whole list. |
| UseApplications.FailureMessage | src/hooks/use-applications.ts:103-117 | A non-ok reply fails with the fixed message. A rejected fetch, or an unreadable body that is read, fails with the thrown Error's message, or the fixed message for a non-Error value. An ok reply otherwise succeeds. |
| UseApplications.CreateCompleted | src/hooks/use-applications.ts:93-119 | Success prepends the new application. Failure sets the error, leaves the list unchanged and rethrows. |
| UseApplications.UpdateCompleted | src/hooks/use-applications.ts:121-152 | Success replaces exactly the matching id. Failure sets the error, leaves the list unchanged and rethrows. |
| UseApplications.DeleteCompleted | src/hooks/use-applications.ts:154-171 | Success removes exactly the matching id. Failure sets the error, leaves the list unchanged and rethrows. |
| UseApplications.CreateThenDeleteRestores | src/hooks/use-applications.ts:111 | Creating an application with a fresh id and deleting it restores the list. |
| AuthConfig.UpToAt | src/lib/auth-config.ts:19 | The text before the first "@", which contains no "@". |
| AuthConfig.DomainPart | src/lib/auth-config.ts:19 | Absent exactly when there is no "@". Otherwise it is the text after the first "@" up to the next one. |
| AuthConfig.DomainPartOfAddress | src/lib/auth-config.ts:19 | For local@domain followed by nothing or by "@…", the domain part is `domain`. |
| AuthConfig.IsAuthorizedEmailIn | src/lib/auth-config.ts:12-21 | Authorized exactly when the email is listed, or its domain part is a listed domain. An email without "@" passes only when listed. |
| AuthConfig.NoDomainsMeansExactList | src/lib/auth-config.ts:4-10 | With no domains, authorization is exact, case-sensitive list membership. |
| AuthConfig.IsAuthorizedEmail | src/lib/auth-config.ts:4-21 | With the shipped lists, only "chad@cwalker.dev" is authorized, compared case-sensitively. |
| AuthConfig.ListedDomainAdmits | src/lib/auth-config.ts:19-20 | Any address at a listed domain is authorized. |
| AuthConfig.SignIn | src/lib/auth-config.ts:31-43 | False without an email. Otherwise true exactly when the email is authorized. |
| AuthConfig.SessionCallback | src/lib/auth-config.ts:44-56 | Throws exactly when the session email is present and unauthorized (the "Unauthorized" Error), or when a truthy `user.id` is to be copied but `session.user` is undefined (a TypeError). Otherwise it copies a truthy `user.id` into the session, or leaves the session unchanged without one. |
| AuthConfig.JwtCallback | src/lib/auth-config.ts:57-68 | Throws the "Unauthorized" Error exactly for a present user with an unauthorized email. Otherwise it sets `token.id` when a user is present and keeps the other claims. |
| AuthConfig.CallbacksAgreeWithSignIn | src/lib/auth-config.ts:31-68 | For any user, the jwt and session callbacks throw exactly when the user carries an email and sign-in refuses it. A user without an email is refused by sign-in but passes the jwt callback. |
| CreateApplicationModal.Open | src/components/create-application-modal.tsx:22-28 | Opening resets name, description and error to empty. |
| CreateApplicationModal.NormalizedDescription | src/components/create-application-modal.tsx:44 | The trimmed description, or undefined exactly when it is all whitespace. |
| CreateApplicationModal.SubmitDisabled | src/components/create-application-modal.tsx:100 | Disabled exactly when the name is all whitespace. |
| CreateApplicationModal.Submit | src/components/create-application-modal.tsx:30-45 | A blank name sets "Application name is required" and calls nothing. Otherwise it submits the non-empty trimmed name and normalised description with loading set. |
| CreateApplicationModal.SubmittedDataIsTrimmed | src/components/create-application-modal.tsx:43-44 | The submitted name and description are already trimmed. |
| CreateApplicationModal.SubmitCompleted | src/components/create-application-modal.tsx:46-51 | Success closes. Failure stays open with the message or the fallback. Loading ends in every case. |
| CreateApplicationModal.CancelCloses | src/components/create-application-modal.tsx:54-58 | Cancel closes the dialog exactly when no submission is in flight. |
| CreateApplicationModal.CancelIgnoredWhileSubmitting | src/components/create-application-modal.tsx:54-58 | Cancel closes a freshly opened dialog and one whose submit was rejected for a blank name. It is ignored while a submission is in flight, and closes again once the submission settles, whatever the outcome. |
| EditableText.Initial | src/components/ui/editable-text.tsx:22-25 | Starts not editing, with the value as text and no error. |
| EditableText.ValueChanged | src/components/ui/editable-text.tsx:28-30 | A new `value` replaces the edited text. Nothing else changes. |
| EditableText.StartEdit | src/components/ui/editable-text.tsx:41-46 | No effect when disabled. Otherwise it enters editing and clears the error. |
| EditableText.Cancel | src/components/ui/editable-text.tsx:48-52 | Leaves editing, restores the text from `value` and clears the error. |
| EditableText.Save | src/components/ui/editable-text.tsx:54-64 | When the trimmed text equals the trimmed value, editing ends without a call. Otherwise the trimmed text, which differs from the value, is saved with loading set. |
| EditableText.SaveCompleted | src/components/ui/editable-text.tsx:63-70 | Success leaves editing. Failure keeps editing with the message or "Failed to save". Loading ends. |
| EditableText.KeyDown | src/components/ui/editable-text.tsx:73-83 | Enter saves a single-line editor. A multiline editor saves only on Ctrl/Cmd+Enter. Escape cancels. |
| EditableText.Blur | src/components/ui/editable-text.tsx:85-89 | Blur runs the save step exactly when not loading, and does nothing while a save is in flight. |
| EditableText.WhitespaceOnlyEditIsUnchanged | src/components/ui/editable-text.tsx:55-58 | Adding only surrounding whitespace to the value saves nothing. |
| ApplicationCard.TruncateText | src/components/application-card.tsx:32-35 | A text that fits is unchanged. A longer one becomes its first `maxLength` characters plus "...", length `maxLength`+3. The result begins with the first min(length, `maxLength`) characters. |
| ApplicationCard.TruncateTextIdempotent | src/components/application-card.tsx:32-35 | Truncating a truncated text changes nothing. |
| ApplicationCard.CardTitle | src/components/application-card.tsx:52 | Names up to 25 characters are shown whole. Titles are at most 28 characters. |
| ApplicationCard.DescriptionText | src/components/application-card.tsx:69 | A null or empty description shows "No description provided". Any other is shown as is. |
| ApplicationCard.HandleDelete | src/components/application-card.tsx:26-30 | Closes the menu and calls `onDelete` with this application's id exactly when it is given. |
| ApplicationCard.ToggleContextMenu | src/components/application-card.tsx:21-24 | The menu button flips the menu's visibility. |

## Left out

- Rendering, DOM and focus handling, scroll locking, and the markup of every component. Only the conditions that choose what is shown are modelled.
- `fetch`, `setTimeout`, React effects and async interleaving. Replies are inputs; a retry is a returned call plus delay. Overlapping requests (for example a second `loadMore` while a retry is pending) are not modelled.
- Prisma. The database is sequences of application, membership and child rows. The order Prisma gives to equal `updatedAt` values is not specified; in the model, rows with equal `updatedAt` keep their stored order.
- The route's 500 paths: a storage failure, or `request.json()` failing on a malformed body.
- Identifiers and timestamps that storage generates. They are parameters of `ApplicationsRoute.Post`.
- ApplicationsRoute.Post: its `requires` that the database is well formed and the new id is fresh stands in for the storage's own guarantees.
- A non-string `description` in the POST body. The model passes strings through, as the route does, and does not model other JSON values.
- The health endpoints, the GitHub provider and NextAuth wiring, and the response headers in `next.config.ts`. These are I/O or configuration.
- The random `isHealthy` flag that `addHealthIndicator` adds. It is mock data, so `Application` has no such field.
- Locale date formatting. Timestamps are integers in the route and strings in `Environment`.
- String lengths count Unicode code points. JavaScript counts UTF-16 code units, so names with characters outside the Basic Multilingual Plane are measured differently.
- How the hooks and the route fit together. The route returns a bare array and ignores paging parameters, while `useApplications` reads `data.applications`. Each side is modelled on its own.
- The environment, secret and variable server routes, secret encryption and the role resolver. These files are not part of this model.
- `EditableTextarea`: it is `EditableText` with `multiline` set.
- The retry delay: the source comment calls it "exponential backoff", but the code computes a linear delay (1000, then 2000 ms). The model follows the code.

## Findings

| source | as written | input that shows it | evidently intended | confidence | as-written member | corrected member |
|---|---|---|---|---|---|---|
| src/hooks/use-applications.ts:44-51, 66-70 | A non-ok status throws `Error("Failed to fetch applications (N)")`. The catch retries any message containing "fetch", so every non-ok status is retried while retryCount < 2. | A 404 reply on the first attempt: it is retried after 1000 ms. | Only statuses ≥ 500 are retried; others go straight to the error. | not executed | UseApplications.FetchCompletedAsWritten, UseApplications.AsWrittenRetriesNotFound, UseApplications.AsWrittenRetriesNotFoundTwice, UseApplications.RulesDifferOnlyOnClientErrors | UseApplications.FetchCompleted |

=== FILE: application_card.dfy ===
/** The application card: name truncation, the description fallback and the delete action. */
module ApplicationCard {
  import opened Wrappers
  import opened ApplicationTypes

  const NameMaxLength: nat := 25
  const Ellipsis := "..."
  const NoDescription := "No description provided"

  /** `truncateText`: the text itself when it fits, else its first `maxLength` characters and "...". */
  function TruncateText(text: string, maxLength: nat): (r: string)
    ensures |text| <= maxLength ==> r == text
    ensures |text| > maxLength ==> |r| == maxLength + |Ellipsis| && r[maxLength..] == Ellipsis
    ensures var keep := if |text| <= maxLength then |text| else maxLength;
            keep <= |r| && r[..keep] == text[..keep]
  {
    if |text| <= maxLength then text else text[..maxLength] + Ellipsis
  }

  /** Truncating an already truncated text changes nothing. */
  lemma {:induction false} TruncateTextIdempotent(text: string, maxLength: nat)
    ensures TruncateText(TruncateText(text, maxLength), maxLength) == TruncateText(text, maxLength)
  {
    var r := TruncateText(text, maxLength);
    if |text| > maxLength {
      assert r[..maxLength] == text[..maxLength];
      assert r == r[..maxLength] + Ellipsis;
    }
  }

  /** The card's title. */
  function CardTitle(a: Application): (t: string)
    ensures |a.name| <= NameMaxLength ==> t == a.name
    ensures |t| <= NameMaxLength + |Ellipsis|
  {
    TruncateText(a.name, NameMaxLength)
  }

  /** `application.description || 'No description provided'` */
  function DescriptionText(description: Option<string>): (t: string)
    ensures Truthy(description) ==> t == description.value
    ensures !Truthy(description) ==> t == NoDescription
    ensures t != ""
  {
    if Truthy(description) then description.value else NoDescription
  }

  datatype Card = Card(showContextMenu: bool)

  /** The card after the menu's delete and the id `onDelete` was called with, if it was given. */
  datatype Deleted = Deleted(card: Card, onDeleteCalledWith: Option<string>)

  /** `handleDelete`: closes the menu and calls `onDelete?.(application.id)`. */
  function HandleDelete(c: Card, a: Application, hasOnDelete: bool): (r: Deleted)
    ensures !r.card.showContextMenu
    ensures r.onDeleteCalledWith.Some? <==> hasOnDelete
    ensures r.onDeleteCalledWith.Some? ==> r.onDeleteCalledWith.value == a.id
  {
    Deleted(c.(showContextMenu := false), if hasOnDelete then Some(a.id) else None)
  }

  /** The menu button toggles the menu. */
  function ToggleContextMenu(c: Card): (r: Card)
    ensures r.showContextMenu != c.showContextMenu
  {
    c.(showContextMenu := !c.showContextMenu)
  }
}

=== FILE: application_types.dfy ===
/** The application record shared by the route, the hook and the card, and the membership roles. */
module ApplicationTypes {
  import opened Wrappers

  /** A member's role on one application, from most to least privileged. */
  datatype Role = Owner | Editor | Viewer

  /** The privilege order OWNER > EDITOR > VIEWER. */
  function Privilege(r: Role): nat
  {
    match r
    case Owner => 3
    case Editor => 2
    case Viewer => 1
  }

  /** An application as the client holds it; instants are abstract numbers. */
  datatype Application = Application(
    id: string,
    name: string,
    description: Option<string>,
    createdAt: int,
    updatedAt: int)

  function ApplicationId(a: Application): string
  {
    a.id
  }
}

=== FILE: applications_route.dfy ===
/**
 * The `/api/applications` route. The database is an in-memory relation of
 * applications, memberships and owned child rows; the session is an input.
 */
module ApplicationsRoute {
  import opened Wrappers
  import opened ListOps
  import opened ApplicationTypes

  /** A principal's role on one application. */
  datatype Membership = Membership(userId: string, applicationId: string, role: Role)

  /** An environment, secret or variable row, reduced to the application that owns it. */
  datatype ChildRow = ChildRow(id: string, applicationId: string)

  datatype Db = Db(
    applications: seq<Application>,
    memberships: seq<Membership>,
    environments: seq<ChildRow>,
    secrets: seq<ChildRow>,
    variables: seq<ChildRow>)

  predicate MembershipOf(m: Membership, userId: string, applicationId: string)
  {
    m.userId == userId && m.applicationId == applicationId
  }

  /** The role of the first membership of `userId` on `applicationId` (`users[0]?.role`
      after filtering the application's memberships by user). */
  function RoleOf(ms: seq<Membership>, userId: string, applicationId: string): (r: Option<Role>)
    ensures r.None? <==> forall i :: 0 <= i < |ms| ==> !MembershipOf(ms[i], userId, applicationId)
    ensures r.Some? ==> exists i :: 0 <= i < |ms| && MembershipOf(ms[i], userId, applicationId) && ms[i].role == r.value
  {
    if ms == [] then None
    else if MembershipOf(ms[0], userId, applicationId) then Some(ms[0].role)
    else
      var r := RoleOf(ms[1..], userId, applicationId);
      assert forall i :: 1 <= i < |ms| ==> ms[i] == ms[1..][i - 1];
      r
  }

  /** The number of rows whose `owner` is `applicationId`: the `_count` of a relation, and
      the number of memberships an application has. */
  function CountOwned<T>(rows: seq<T>, owner: T -> string, applicationId: string): (n: nat)
    ensures n <= |rows|
    ensures n == 0 <==> forall i :: 0 <= i < |rows| ==> owner(rows[i]) != applicationId
  {
    if rows == [] then 0
    else
      var rest := CountOwned(rows[1..], owner, applicationId);
      assert forall i :: 1 <= i < |rows| ==> rows[i] == rows[1..][i - 1];
      (if owner(rows[0]) == applicationId then 1 else 0) + rest
  }

  function ChildOwner(c: ChildRow): string
  {
    c.applicationId
  }

  function MembershipOwner(m: Membership): string
  {
    m.applicationId
  }

  /** The count is the number of rows a delete of the owner's rows would take away. */
  lemma {:induction false} CountOwnedIsRowsRemoved<T(!new)>(rows: seq<T>, owner: T -> string, applicationId: string)
    ensures CountOwned(rows, owner, applicationId) + |RemoveById(rows, owner, applicationId)| == |rows|
  {
    if rows != [] {
      CountOwnedIsRowsRemoved(rows[1..], owner, applicationId);
    }
  }

  /** Adding one row raises the count of its own application by one and no other. */
  lemma {:induction false} CountOwnedAppend<T>(rows: seq<T>, owner: T -> string, x: T, applicationId: string)
    ensures CountOwned(rows + [x], owner, applicationId)
         == CountOwned(rows, owner, applicationId) + (if owner(x) == applicationId then 1 else 0)
  {
    if rows != [] {
      assert (rows + [x])[1..] == rows[1..] + [x];
      CountOwnedAppend(rows[1..], owner, x, applicationId);
    }
  }

  predicate KnownApplication(db: Db, applicationId: string)
  {
    exists i :: 0 <= i < |db.applications| && db.applications[i].id == applicationId
  }

  /** Referential integrity and the unique keys the schema declares. */
  ghost predicate WellFormed(db: Db)
  {
    && (forall i, j :: 0 <= i < j < |db.applications| ==> db.applications[i].id != db.applications[j].id)
    && (forall i, j :: 0 <= i < j < |db.memberships| ==>
          !MembershipOf(db.memberships[j], db.memberships[i].userId, db.memberships[i].applicationId))
    && (forall i :: 0 <= i < |db.memberships| ==> KnownApplication(db, db.memberships[i].applicationId))
    && (forall i :: 0 <= i < |db.environments| ==> KnownApplication(db, db.environments[i].applicationId))
    && (forall i :: 0 <= i < |db.secrets| ==> KnownApplication(db, db.secrets[i].applicationId))
    && (forall i :: 0 <= i < |db.variables| ==> KnownApplication(db, db.variables[i].applicationId))
  }

  /** With unique memberships, the role found is the role of every membership of that pair. */
  lemma RoleOfIsTheMembershipRole(db: Db, k: nat)
    requires WellFormed(db)
    requires k < |db.memberships|
    ensures RoleOf(db.memberships, db.memberships[k].userId, db.memberships[k].applicationId)
         == Some(db.memberships[k].role)
  {
    var m := db.memberships[k];
    var r := RoleOf(db.memberships, m.userId, m.applicationId);
    var i :| 0 <= i < |db.memberships| && MembershipOf(db.memberships[i], m.userId, m.applicationId)
             && db.memberships[i].role == r.value;
    assert i == k;
  }

  /** The `where: { users: { some: { userId } } }` filter. */
  function MemberApplications(apps: seq<Application>, ms: seq<Membership>, userId: string): (r: seq<Application>)
    ensures forall a :: a in r <==> a in apps && RoleOf(ms, userId, a.id).Some?
    ensures forall a :: multiset(r)[a] == if RoleOf(ms, userId, a.id).Some? then multiset(apps)[a] else 0
  {
    if apps == [] then []
    else
      var rest := MemberApplications(apps[1..], ms, userId);
      assert apps == [apps[0]] + apps[1..];
      if RoleOf(ms, userId, apps[0].id).Some? then [apps[0]] + rest else rest
  }

  /** Most recently updated first. */
  predicate SortedByRecency(s: seq<Application>)
  {
    forall i, j :: 0 <= i < j < |s| ==> s[i].updatedAt >= s[j].updatedAt
  }

  function InsertByRecency(a: Application, s: seq<Application>): (r: seq<Application>)
    requires SortedByRecency(s)
    ensures SortedByRecency(r)
    ensures multiset(r) == multiset(s) + multiset{a}
    ensures forall x :: x in r ==> x == a || x in s
  {
    if s == [] || a.updatedAt >= s[0].updatedAt then
      ConsSorted(a, s);
      [a] + s
    else
      var rest := InsertByRecency(a, s[1..]);
      assert s == [s[0]] + s[1..];
      assert forall y :: y in rest ==> s[0].updatedAt >= y.updatedAt by {
        forall y | y in rest ensures s[0].updatedAt >= y.updatedAt {
          if y != a {
            var k :| 0 <= k < |s[1..]| && s[1..][k] == y;
            assert s[k + 1] == y;
          }
        }
      }
      ConsSorted(s[0], rest);
      [s[0]] + rest
  }

  /** An element no older than every element of a sorted list may head it. */
  lemma ConsSorted(x: Application, rest: seq<Application>)
    requires SortedByRecency(rest)
    requires forall y :: y in rest ==> x.updatedAt >= y.updatedAt
    ensures SortedByRecency([x] + rest)
  {
    var r := [x] + rest;
    forall i, j | 0 <= i < j < |r| ensures r[i].updatedAt >= r[j].updatedAt {
      assert r[j] == rest[j - 1];
      if i > 0 {
        assert r[i] == rest[i - 1];
      }
    }
  }

  /** `orderBy: { updatedAt: 'desc' }`: a permutation sorted by recency. The source fixes
      no order among rows with the same instant; here they keep their stored order. */
  function SortByRecency(s: seq<Application>): (r: seq<Application>)
    ensures SortedByRecency(r)
    ensures multiset(r) == multiset(s)
  {
    if s == [] then []
    else
      assert s == [s[0]] + s[1..];
      InsertByRecency(s[0], SortByRecency(s[1..]))
  }

  /** Counts of the application's environments, secrets and variables. */
  datatype AppCounts = AppCounts(environments: nat, secrets: nat, variables: nat)

  /** One entry of the route's output: the application, the caller's role and the counts. */
  datatype Summary = Summary(
    id: string,
    name: string,
    description: Option<string>,
    createdAt: int,
    updatedAt: int,
    role: Option<Role>,
    counts: AppCounts)

  /** One listed application with the caller's role and its resource counts. */
  function Summarize(db: Db, userId: string, a: Application): (r: Summary)
    ensures r.id == a.id && r.name == a.name && r.description == a.description
    ensures r.createdAt == a.createdAt && r.updatedAt == a.updatedAt
    ensures r.role == RoleOf(db.memberships, userId, a.id)
    ensures r.counts.environments + |RemoveById(db.environments, ChildOwner, a.id)| == |db.environments|
    ensures r.counts.secrets + |RemoveById(db.secrets, ChildOwner, a.id)| == |db.secrets|
    ensures r.counts.variables + |RemoveById(db.variables, ChildOwner, a.id)| == |db.variables|
  {
    CountOwnedIsRowsRemoved(db.environments, ChildOwner, a.id);
    CountOwnedIsRowsRemoved(db.secrets, ChildOwner, a.id);
    CountOwnedIsRowsRemoved(db.variables, ChildOwner, a.id);
    Summary(a.id, a.name, a.description, a.createdAt, a.updatedAt,
            RoleOf(db.memberships, userId, a.id),
            AppCounts(CountOwned(db.environments, ChildOwner, a.id), CountOwned(db.secrets, ChildOwner, a.id),
                      CountOwned(db.variables, ChildOwner, a.id)))
  }

  datatype Body = ErrorJson(error: string) | SummaryList(items: seq<Summary>) | SummaryJson(item: Summary)

  datatype Response = Response(status: nat, body: Body)

  const Unauthorized := Response(401, ErrorJson("Unauthorized"))

  datatype SessionUser = SessionUser(id: Option<string>, email: Option<string>)

  datatype Session = Session(user: Option<SessionUser>)

  /** `session?.user?.id` when it is truthy. */
  function CallerId(session: Option<Session>): (r: Option<string>)
    ensures r.Some? <==> session.Some? && session.value.user.Some? && Truthy(session.value.user.value.id)
    ensures r.Some? ==> r.value != "" && r == session.value.user.value.id
  {
    match session
    case Some(Session(Some(SessionUser(Some(id), _)))) => if id != "" then Some(id) else None
    case _ => None
  }

  /** The caller's applications in the order the route lists them. */
  function VisibleApplications(db: Db, userId: string): (r: seq<Application>)
    ensures SortedByRecency(r)
    ensures forall a :: a in r <==> a in db.applications && RoleOf(db.memberships, userId, a.id).Some?
    ensures multiset(r) == multiset(MemberApplications(db.applications, db.memberships, userId))
  {
    var members := MemberApplications(db.applications, db.memberships, userId);
    var r := SortByRecency(members);
    assert forall a :: a in r <==> a in members by {
      forall a ensures a in r <==> a in members {
        assert a in r <==> a in multiset(r);
      }
    }
    r
  }

  /** The summaries of `rows`, in order. */
  function Summaries(db: Db, userId: string, rows: seq<Application>): (r: seq<Summary>)
    ensures |r| == |rows|
    ensures forall i :: 0 <= i < |rows| ==> r[i] == Summarize(db, userId, rows[i])
  {
    if rows == [] then [] else [Summarize(db, userId, rows[0])] + Summaries(db, userId, rows[1..])
  }

  /** The listing the route builds for a caller. */
  function Listing(db: Db, userId: string): (items: seq<Summary>)
    ensures forall i :: 0 <= i < |items| ==>
              && RoleOf(db.memberships, userId, items[i].id).Some?
              && items[i].role == RoleOf(db.memberships, userId, items[i].id)
              && exists a :: a in db.applications && items[i] == Summarize(db, userId, a)
    ensures forall i, j :: 0 <= i < j < |items| ==> items[i].updatedAt >= items[j].updatedAt
    ensures forall a :: a in db.applications && RoleOf(db.memberships, userId, a.id).Some? ==>
              Summarize(db, userId, a) in items
    ensures |items| == |VisibleApplications(db, userId)|
    ensures forall i :: 0 <= i < |items| ==> items[i].id == VisibleApplications(db, userId)[i].id
  {
    var rows := VisibleApplications(db, userId);
    var items := Summaries(db, userId, rows);
    ListingSound(db, userId, rows, items);
    ListingComplete(db, userId, rows, items);
    items
  }

  lemma ListingSound(db: Db, userId: string, rows: seq<Application>, items: seq<Summary>)
    requires SortedByRecency(rows)
    requires forall a :: a in rows ==> a in db.applications && RoleOf(db.memberships, userId, a.id).Some?
    requires items == Summaries(db, userId, rows)
    ensures forall i :: 0 <= i < |items| ==>
              && RoleOf(db.memberships, userId, items[i].id).Some?
              && items[i].role == RoleOf(db.memberships, userId, items[i].id)
              && exists a :: a in db.applications && items[i] == Summarize(db, userId, a)
    ensures forall i, j :: 0 <= i < j < |items| ==> items[i].updatedAt >= items[j].updatedAt
  {
    forall i | 0 <= i < |items|
      ensures RoleOf(db.memberships, userId, items[i].id).Some?
      ensures items[i].role == RoleOf(db.memberships, userId, items[i].id)
      ensures exists a :: a in db.applications && items[i] == Summarize(db, userId, a)
    {
      assert rows[i] in rows;
      assert items[i] == Summarize(db, userId, rows[i]);
    }
    forall i, j | 0 <= i < j < |items| ensures items[i].updatedAt >= items[j].updatedAt {
      assert items[i] == Summarize(db, userId, rows[i]);
      assert items[j] == Summarize(db, userId, rows[j]);
    }
  }

  lemma ListingComplete(db: Db, userId: string, rows: seq<Application>, items: seq<Summary>)
    requires forall a :: a in db.applications && RoleOf(db.memberships, userId, a.id).Some? ==> a in rows
    requires items == Summaries(db, userId, rows)
    ensures forall a :: a in db.applications && RoleOf(db.memberships, userId, a.id).Some? ==>
              Summarize(db, userId, a) in items
  {
    forall a | a in db.applications && RoleOf(db.memberships, userId, a.id).Some?
      ensures Summarize(db, userId, a) in items
    {
      var i :| 0 <= i < |rows| && rows[i] == a;
      assert items[i] == Summarize(db, userId, a);
    }
  }

  /** With unique application ids, no application is listed twice. */
  lemma ListingHasNoDuplicates(db: Db, userId: string)
    requires WellFormed(db)
    ensures var items := Listing(db, userId);
            forall i, j :: 0 <= i < j < |items| ==> items[i].id != items[j].id
  {
    var rows := VisibleApplications(db, userId);
    var members := MemberApplications(db.applications, db.memberships, userId);
    assert forall x :: multiset(rows)[x] <= multiset(db.applications)[x] by {
      forall x ensures multiset(rows)[x] <= multiset(db.applications)[x] {
        assert multiset(rows)[x] == multiset(members)[x];
      }
    }
    DistinctIdsOfSubMultiset(db.applications, rows);
  }

  /** Rows drawn, without repetition, from a list with unique ids have unique ids. */
  lemma DistinctIdsOfSubMultiset(apps: seq<Application>, rows: seq<Application>)
    requires forall i, j :: 0 <= i < j < |apps| ==> apps[i].id != apps[j].id
    requires forall x :: multiset(rows)[x] <= multiset(apps)[x]
    ensures forall i, j :: 0 <= i < j < |rows| ==> rows[i].id != rows[j].id
  {
    forall i, j | 0 <= i < j < |rows| ensures rows[i].id != rows[j].id {
      if rows[i].id == rows[j].id {
        assert rows[i] in multiset(apps) && rows[j] in multiset(apps) by {
          assert multiset(rows)[rows[i]] > 0 && multiset(rows)[rows[j]] > 0;
        }
        var p :| 0 <= p < |apps| && apps[p] == rows[i];
        var q :| 0 <= q < |apps| && apps[q] == rows[j];
        assert p == q;
        CountAtLeastTwo(rows, i, j);
        UniqueIdsOnce(apps, rows[i]);
        assert false;
      }
    }
  }

  /** A value found at two positions occurs at least twice. */
  lemma CountAtLeastTwo(s: seq<Application>, i: nat, j: nat)
    requires i < j < |s| && s[i] == s[j]
    ensures multiset(s)[s[i]] >= 2
  {
    var x := s[i];
    assert s == s[..j] + [s[j]] + s[j + 1..];
    assert s[..j] == s[..i] + [s[i]] + s[i + 1..j];
    assert multiset(s[..j])[x] >= 1;
  }

  /** In a list with unique ids every application occurs at most once. */
  lemma {:induction false} UniqueIdsOnce(apps: seq<Application>, x: Application)
    requires forall i, j :: 0 <= i < j < |apps| ==> apps[i].id != apps[j].id
    ensures multiset(apps)[x] <= 1
  {
    if apps != [] {
      assert apps == [apps[0]] + apps[1..];
      var tail := apps[1..];
      assert forall i, j :: 0 <= i < j < |tail| ==> tail[i].id != tail[j].id by {
        forall i, j | 0 <= i < j < |tail| ensures tail[i].id != tail[j].id {
          assert tail[i] == apps[i + 1] && tail[j] == apps[j + 1];
        }
      }
      UniqueIdsOnce(tail, x);
    }
  }

  /** Rows updated at the same instant keep their stored order. */
  lemma SortKeepsTieOrder(x: Application, y: Application)
    requires x.updatedAt == y.updatedAt
    ensures SortByRecency([x, y]) == [x, y]
  {
    assert [x, y][1..] == [y];
    assert [y][1..] == [];
  }

  /** GET: 401 without a caller, otherwise the caller's listing. */
  function Get(db: Db, session: Option<Session>): (r: Response)
    ensures CallerId(session).None? ==> r == Unauthorized
    ensures CallerId(session).Some? ==> r == Response(200, SummaryList(Listing(db, CallerId(session).value)))
  {
    match CallerId(session)
    case None => Unauthorized
    case Some(caller) => Response(200, SummaryList(Listing(db, caller)))
  }

  /** The `name` member of a POST body: absent, a string, or some other JSON value. */
  datatype NameField = Absent | Text(text: string) | NotText

  /** A POST body; `description` is taken as sent. */
  datatype CreateRequest = CreateRequest(name: NameField, description: Option<string>)

  /** The response and the database after a POST. */
  datatype Created = Created(response: Response, db: Db)

  /** POST: create an application with the caller as its single OWNER. The new id and
      instant come from the database; the id is one no application holds yet. */
  function Post(db: Db, session: Option<Session>, request: CreateRequest, newId: string, now: int): (c: Created)
    requires WellFormed(db)
    requires Fresh(db.applications, ApplicationId, newId)
    ensures CallerId(session).None? ==> c == Created(Unauthorized, db)
    ensures CallerId(session).Some? && !(request.name.Text? && request.name.text != "") ==>
              c == Created(Response(400, ErrorJson("Name is required")), db)
    ensures c.response.status == 201 <==>
              CallerId(session).Some? && request.name.Text? && request.name.text != ""
    ensures c.response.status == 201 ==>
              var caller := CallerId(session).value;
              var app := Application(newId, request.name.text, request.description, now, now);
              && c.db == db.(applications := db.applications + [app],
                             memberships := db.memberships + [Membership(caller, newId, Owner)])
              && CountOwned(c.db.memberships, MembershipOwner, newId) == 1
              && WellFormed(c.db)
              && c.response.body == SummaryJson(Summary(newId, app.name, app.description, now, now,
                                                        Some(Owner), AppCounts(0, 0, 0)))
  {
    match CallerId(session)
    case None => Created(Unauthorized, db)
    case Some(caller) =>
      if !(request.name.Text? && request.name.text != "") then
        Created(Response(400, ErrorJson("Name is required")), db)
      else
        var app := Application(newId, request.name.text, request.description, now, now);
        var membership := Membership(caller, newId, Owner);
        var db' := db.(applications := db.applications + [app], memberships := db.memberships + [membership]);
        PostKeepsWellFormed(db, app, membership);
        CountOwnedAppend(db.memberships, MembershipOwner, membership, newId);
        NothingOwnedYet(db, newId);
        assert RoleOf(db'.memberships, caller, newId) == Some(Owner) by {
          RoleOfIsTheMembershipRole(db', |db.memberships|);
        }
        Created(Response(201, SummaryJson(Summarize(db', caller, app))), db')
  }

  /** A fresh id owns no membership and no child row. */
  lemma NothingOwnedYet(db: Db, newId: string)
    requires WellFormed(db)
    requires Fresh(db.applications, ApplicationId, newId)
    ensures CountOwned(db.memberships, MembershipOwner, newId) == 0
    ensures CountOwned(db.environments, ChildOwner, newId) == 0
    ensures CountOwned(db.secrets, ChildOwner, newId) == 0
    ensures CountOwned(db.variables, ChildOwner, newId) == 0
  {
    assert !KnownApplication(db, newId);
  }

  lemma PostKeepsWellFormed(db: Db, app: Application, membership: Membership)
    requires WellFormed(db)
    requires Fresh(db.applications, ApplicationId, app.id)
    requires membership.applicationId == app.id
    ensures WellFormed(db.(applications := db.applications + [app], memberships := db.memberships + [membership]))
  {
    var db' := db.(applications := db.applications + [app], memberships := db.memberships + [membership]);
    assert !KnownApplication(db, app.id);
    assert forall id :: KnownApplication(db, id) ==> KnownApplication(db', id) by {
      forall id | KnownApplication(db, id) ensures KnownApplication(db', id) {
        var i :| 0 <= i < |db.applications| && db.applications[i].id == id;
        assert db'.applications[i].id == id;
      }
    }
    assert KnownApplication(db', app.id) by {
      assert db'.applications[|db.applications|].id == app.id;
    }
    assert forall i :: 0 <= i < |db.memberships| ==> db.memberships[i].applicationId != app.id;
  }
}

=== FILE: auth_config.dfy ===
/**
 * The sign-in allowlist and the NextAuth callbacks built on it. The provider
 * wiring is configuration and is not part of this model.
 */
module AuthConfig {
  import opened Wrappers
  import opened Http

  const AuthorizedEmails: seq<string> := ["chad@cwalker.dev"]
  const AuthorizedDomains: seq<string> := []

  /** The text before the first '@' (all of `s` when it has none). */
  function UpToAt(s: string): (r: string)
    ensures |r| <= |s| && r == s[..|r|]
    ensures '@' !in r
    ensures |r| < |s| ==> s[|r|] == '@'
  {
    if s == [] || s[0] == '@' then [] else [s[0]] + UpToAt(s[1..])
  }

  /** `email.split('@')[1]`: the text between the first '@' and the next one (or the end);
      undefined when there is no '@'. */
  function DomainPart(email: string): (r: Option<string>)
    ensures r.None? <==> '@' !in email
    ensures r.Some? ==> '@' !in r.value
    ensures r.Some? ==>
              var k := |UpToAt(email)|;
              && k + 1 + |r.value| <= |email|
              && email[..k + 1 + |r.value|] == UpToAt(email) + "@" + r.value
              && (k + 1 + |r.value| == |email| || email[k + 1 + |r.value|] == '@')
  {
    var local := UpToAt(email);
    if |local| == |email| then None
    else
      var rest := email[|local| + 1..];
      var domain := UpToAt(rest);
      assert email[..|local| + 1 + |domain|] == local + "@" + domain by {
        assert email[..|local| + 1 + |domain|] == email[..|local|] + [email[|local|]] + rest[..|domain|];
      }
      Some(domain)
  }

  /** Splitting `local@domain` yields `domain` when neither part holds an '@'. */
  lemma {:induction false} DomainPartOfAddress(local: string, domain: string, more: string)
    requires '@' !in local && '@' !in domain
    requires more == [] || more[0] == '@'
    ensures DomainPart(local + "@" + domain + more) == Some(domain)
  {
    var tail := "@" + domain + more;
    var email := local + tail;
    assert email == local + "@" + domain + more;
    UpToAtStopsAtAt(local, tail);
    assert |UpToAt(email)| < |email|;
    var rest := email[|local| + 1..];
    assert rest == domain + more;
    UpToAtStopsAtAt(domain, more);
    assert UpToAt(rest) == domain;
  }

  lemma {:induction false} UpToAtStopsAtAt(a: string, b: string)
    requires '@' !in a
    requires b == [] || b[0] == '@'
    ensures UpToAt(a + b) == a
  {
    if a != [] {
      assert (a + b)[1..] == a[1..] + b;
      UpToAtStopsAtAt(a[1..], b);
    }
  }

  /** `isAuthorizedEmail` over given lists: an exact listed email, or a listed domain part. */
  function IsAuthorizedEmailIn(emails: seq<string>, domains: seq<string>, email: string): (b: bool)
    ensures email in emails ==> b
    ensures b <==> email in emails || (DomainPart(email).Some? && DomainPart(email).value in domains)
    ensures '@' !in email ==> (b <==> email in emails)
  {
    if email in emails then true
    else
      match DomainPart(email)
      case Some(domain) => domain in domains
      case None => false
  }

  /** `isAuthorizedEmail` with the configured lists: exactly one address is let in,
      compared case-sensitively. */
  function IsAuthorizedEmail(email: string): (b: bool)
    ensures b <==> email == "chad@cwalker.dev"
  {
    IsAuthorizedEmailIn(AuthorizedEmails, AuthorizedDomains, email)
  }

  /** With no authorised domains, authorisation is exact, case-sensitive list membership. */
  lemma NoDomainsMeansExactList(emails: seq<string>, email: string)
    ensures IsAuthorizedEmailIn(emails, [], email) <==> email in emails
  {
  }

  /** An authorised domain admits any address whose domain part it is. */
  lemma ListedDomainAdmits(emails: seq<string>, domains: seq<string>, local: string, domain: string)
    requires '@' !in local && '@' !in domain
    requires domain in domains
    ensures IsAuthorizedEmailIn(emails, domains, local + "@" + domain)
  {
    DomainPartOfAddress(local, domain, []);
    assert local + "@" + domain + [] == local + "@" + domain;
  }

  /** The user object NextAuth passes to the callbacks. */
  datatype User = User(id: Option<string>, email: Option<string>)

  /** `signIn`: refused without an email, otherwise allowed exactly for authorised addresses. */
  function SignIn(user: User): (allowed: bool)
    ensures !Truthy(user.email) ==> !allowed
    ensures allowed <==> Truthy(user.email) && IsAuthorizedEmail(user.email.value)
  {
    match user.email
    case None => false
    case Some(email) => email != "" && IsAuthorizedEmail(email)
  }

  datatype SessionUser = SessionUser(id: Option<string>, email: Option<string>)

  datatype Session = Session(user: Option<SessionUser>)

  const UnauthorizedError := ErrorObject(false, "Unauthorized")

  /** The error of assigning to a property of `session.user` when it is undefined. */
  const MissingUserError := ErrorObject(true, "Cannot set properties of undefined (setting 'id')")

  /** The session's own email is present and not authorised. */
  predicate SessionRefused(session: Session)
  {
    session.user.Some? && Truthy(session.user.value.email) && !IsAuthorizedEmail(session.user.value.email.value)
  }

  /** `session`: throws for a present but unauthorised session email; otherwise copies a
      truthy `user.id` into `session.user`, which throws a TypeError when `session.user`
      is undefined. */
  function SessionCallback(session: Session, user: Option<User>): (r: Settled<Session>)
    ensures r.Threw? <==> SessionRefused(session) || (user.Some? && Truthy(user.value.id) && session.user.None?)
    ensures SessionRefused(session) ==> r == Threw(UnauthorizedError)
    ensures !SessionRefused(session) && r.Threw? ==> r == Threw(MissingUserError)
    ensures r.Resolved? ==> session.user.Some? ==> r.value.user.Some?
    ensures r.Resolved? && user.Some? && Truthy(user.value.id) ==>
              && session.user.Some? && r.value.user.Some?
              && r.value.user.value.id == user.value.id
              && r.value.user.value.email == session.user.value.email
    ensures r.Resolved? && !(user.Some? && Truthy(user.value.id)) ==> r.value == session
  {
    if SessionRefused(session) then
      Threw(UnauthorizedError)
    else if user.Some? && Truthy(user.value.id) then
      match session.user
      case None => Threw(MissingUserError)
      case Some(u) => Resolved(session.(user := Some(u.(id := user.value.id))))
    else Resolved(session)
  }

  /** The JWT; only the `id` claim is touched. */
  datatype Token = Token(id: Option<string>, claims: map<string, string>)

  /** `jwt`: throws for an unauthorised user email; otherwise a present user's id
      (possibly undefined) is written into the token. */
  function JwtCallback(token: Token, user: Option<User>): (r: Settled<Token>)
    ensures r.Threw? <==> user.Some? && Truthy(user.value.email) && !IsAuthorizedEmail(user.value.email.value)
    ensures r.Threw? ==> r == Threw(UnauthorizedError)
    ensures r.Resolved? ==> r.value.claims == token.claims
    ensures r.Resolved? && user.Some? ==> r.value.id == user.value.id
    ensures user.None? ==> r == Resolved(token)
  {
    match user
    case None => Resolved(token)
    case Some(u) =>
      if Truthy(u.email) && !IsAuthorizedEmail(u.email.value) then Threw(UnauthorizedError)
      else Resolved(token.(id := u.id))
  }

  /** The callbacks reject an address exactly when `signIn` would have refused it for
      carrying an unauthorised email; a user without an email is refused by `signIn` but
      passes both callbacks. */
  lemma CallbacksAgreeWithSignIn(u: User, token: Token, sessionId: Option<string>)
    ensures JwtCallback(token, Some(u)).Threw? <==> Truthy(u.email) && !SignIn(u)
    ensures SignIn(u) ==> JwtCallback(token, Some(u)).Resolved?
    ensures var session := Session(Some(SessionUser(sessionId, u.email)));
            SessionCallback(session, Some(u)).Threw? <==> Truthy(u.email) && !SignIn(u)
    ensures !Truthy(u.email) ==> !SignIn(u) && JwtCallback(token, Some(u)).Resolved?
  {
  }
}

=== FILE: create_application_modal.dfy ===
/**
 * The application creation dialog: trimming, the required-name rule, the data
 * handed to `onSubmit`, and the open, cancel and completion rules.
 */
module CreateApplicationModal {
  import opened Wrappers
  import opened Text
  import opened Http

  const RequiredMessage := "Application name is required"
  const FailedMessage := "Failed to create application"

  /** The dialog's state; an empty `error` shows nothing. */
  datatype Form = Form(name: string, description: string, loading: bool, error: string)

  /** The data passed to `onSubmit`. */
  datatype SubmitData = SubmitData(name: string, description: Option<string>)

  /** Opening the dialog resets the name, the description and the error. */
  function Open(f: Form): (r: Form)
    ensures r.name == "" && r.description == "" && r.error == ""
    ensures r.loading == f.loading
  {
    f.(name := "", description := "", error := "")
  }

  /** `value.trim() || undefined` */
  function NormalizedDescription(d: string): (r: Option<string>)
    ensures r.None? <==> AllWhitespace(d)
    ensures r.Some? ==> r.value == Trim(d) && r.value != ""
  {
    var t := Trim(d);
    if t == "" then None else Some(t)
  }

  /** The submit button is disabled while the trimmed name is empty. */
  function SubmitDisabled(f: Form): (b: bool)
    ensures b <==> AllWhitespace(f.name)
  {
    Trim(f.name) == ""
  }

  datatype SubmitStep = Invalid(form: Form) | Submitting(form: Form, data: SubmitData)

  /** `handleSubmit` up to the awaited `onSubmit`. */
  function Submit(f: Form): (s: SubmitStep)
    ensures s.Invalid? <==> AllWhitespace(f.name)
    ensures s.Invalid? ==> s.form == f.(error := RequiredMessage)
    ensures s.Submitting? ==>
              && s.form == f.(loading := true, error := "")
              && s.data.name == Trim(f.name) && s.data.name != ""
              && s.data.description == NormalizedDescription(f.description)
  {
    var name := Trim(f.name);
    if name == "" then Invalid(f.(error := RequiredMessage))
    else Submitting(f.(loading := true, error := ""), SubmitData(name, NormalizedDescription(f.description)))
  }

  /** The submitted values are already trimmed: trimming them again changes nothing. */
  lemma SubmittedDataIsTrimmed(f: Form)
    requires Submit(f).Submitting?
    ensures var d := Submit(f).data;
            Trim(d.name) == d.name && (d.description.Some? ==> Trim(d.description.value) == d.description.value)
  {
    TrimIdempotent(f.name);
    TrimIdempotent(f.description);
  }

  datatype Completion = Completion(form: Form, closed: bool)

  /** After `onSubmit` settled: success closes the dialog, failure shows the message and keeps it open. */
  function SubmitCompleted(f: Form, outcome: Settled<()>): (c: Completion)
    ensures !c.form.loading
    ensures c.closed <==> outcome.Resolved?
    ensures c.form.name == f.name && c.form.description == f.description
    ensures outcome.Resolved? ==> c.form.error == f.error
    ensures outcome.Threw? ==> c.form.error == MessageOr(outcome.thrown, FailedMessage)
  {
    match outcome
    case Resolved(_) => Completion(f.(loading := false), true)
    case Threw(t) => Completion(f.(error := MessageOr(t, FailedMessage), loading := false), false)
  }

  /** `handleCancel`: the dialog closes only when not loading. */
  function CancelCloses(f: Form): (closes: bool)
    ensures closes <==> !f.loading
  {
    !f.loading
  }

  /** Cancel is ignored exactly while a submission is in flight: a freshly opened dialog,
      a rejected submit and a settled submit can all be cancelled; a running one cannot. */
  lemma {:induction false} CancelIgnoredWhileSubmitting(f: Form, outcome: Settled<()>)
    requires !f.loading
    ensures CancelCloses(f) && CancelCloses(Open(f))
    ensures Submit(f).Invalid? ==> CancelCloses(Submit(f).form)
    ensures Submit(f).Submitting? ==> !CancelCloses(Submit(f).form)
    ensures Submit(f).Submitting? ==> CancelCloses(SubmitCompleted(Submit(f).form, outcome).form)
  {
  }
}

=== FILE: editable_text.dfy ===
/**
 * The inline editor `EditableText`: start, cancel, save (skipped when the trimmed
 * text is unchanged), keyboard and blur handling, and prop changes.
 * `EditableTextarea` is this editor with `multiline` set.
 */
module EditableText {
  import opened Wrappers
  import opened Text
  import opened Http

  const SaveFailedMessage := "Failed to save"

  datatype Props = Props(value: string, multiline: bool, disabled: bool)

  datatype Editor = Editor(isEditing: bool, editValue: string, loading: bool, error: Option<string>)

  function Initial(p: Props): (e: Editor)
    ensures !e.isEditing && e.editValue == p.value && !e.loading && e.error.None?
  {
    Editor(false, p.value, false, None)
  }

  /** A change of the `value` prop resets the edited text to it. */
  function ValueChanged(e: Editor, value: string): (r: Editor)
    ensures r.editValue == value
    ensures r.isEditing == e.isEditing && r.loading == e.loading && r.error == e.error
  {
    e.(editValue := value)
  }

  /** `handleStartEdit`: enters editing and clears the error, unless disabled. */
  function StartEdit(p: Props, e: Editor): (r: Editor)
    ensures p.disabled ==> r == e
    ensures !p.disabled ==> r == e.(isEditing := true, error := None)
  {
    if p.disabled then e else e.(isEditing := true, error := None)
  }

  /** `handleCancel`: leaves editing, restores the text from `value`, clears the error. */
  function Cancel(p: Props, e: Editor): (r: Editor)
    ensures !r.isEditing && r.editValue == p.value && r.error.None? && r.loading == e.loading
  {
    e.(isEditing := false, editValue := p.value, error := None)
  }

  /** What `handleSave` leads to: editing ends without a call, or `onSave(newValue)` is awaited. */
  datatype SaveStep = Unchanged(editor: Editor) | Saving(editor: Editor, newValue: string)

  function Save(p: Props, e: Editor): (s: SaveStep)
    ensures s.Unchanged? <==> Trim(e.editValue) == Trim(p.value)
    ensures s.Unchanged? ==> s.editor == e.(isEditing := false)
    ensures s.Saving? ==> s.newValue == Trim(e.editValue) && s.newValue != Trim(p.value)
    ensures s.Saving? ==> s.editor == e.(loading := true, error := None)
  {
    if Trim(e.editValue) == Trim(p.value) then Unchanged(e.(isEditing := false))
    else Saving(e.(loading := true, error := None), Trim(e.editValue))
  }

  /** After `onSave` settled: success leaves editing; failure stays with the message. */
  function SaveCompleted(e: Editor, outcome: Settled<()>): (r: Editor)
    ensures !r.loading && r.editValue == e.editValue
    ensures outcome.Resolved? ==> !r.isEditing && r.error == e.error
    ensures outcome.Threw? ==> r.isEditing == e.isEditing && r.error == Some(MessageOr(outcome.thrown, SaveFailedMessage))
  {
    match outcome
    case Resolved(_) => e.(isEditing := false, loading := false)
    case Threw(t) => e.(error := Some(MessageOr(t, SaveFailedMessage)), loading := false)
  }

  /** A key press: `key` is `KeyboardEvent.key`. */
  datatype KeyPress = KeyPress(key: string, ctrl: bool, meta: bool)

  datatype KeyAction = SaveKey | CancelKey | NoAction

  /** `handleKeyDown`: Enter saves a single line; a multiline editor needs Ctrl or Cmd
      with Enter; Escape cancels. */
  function KeyDown(p: Props, k: KeyPress): (a: KeyAction)
    ensures a == SaveKey <==> k.key == "Enter" && (!p.multiline || k.ctrl || k.meta)
    ensures a == CancelKey <==> k.key == "Escape"
  {
    if k.key == "Enter" && !p.multiline then SaveKey
    else if k.key == "Enter" && p.multiline && (k.ctrl || k.meta) then SaveKey
    else if k.key == "Escape" then CancelKey
    else NoAction
  }

  /** `handleBlur`: runs `handleSave` only when no save is in flight. */
  function Blur(p: Props, e: Editor): (r: Option<SaveStep>)
    ensures r.None? <==> e.loading
    ensures r.Some? ==> r.value == Save(p, e)
  {
    if e.loading then None else Some(Save(p, e))
  }

  /** Saving text that differs from the value only in surrounding whitespace calls nothing. */
  lemma WhitespaceOnlyEditIsUnchanged(p: Props, e: Editor, before: string, after: string)
    requires AllWhitespace(before) && AllWhitespace(after)
    requires e.editValue == before + Trim(p.value) + after
    ensures Save(p, e).Unchanged?
  {
    TrimAround(before, Trim(p.value), after);
  }

  lemma TrimAround(before: string, t: string, after: string)
    requires AllWhitespace(before) && AllWhitespace(after)
    requires t == [] || (!IsWhitespace(t[0]) && !IsWhitespace(t[|t| - 1]))
    ensures Trim(before + t + after) == t
  {
    if t == [] {
      assert before + t + after == before + after;
      assert AllWhitespace(before + after) by {
        forall i | 0 <= i < |before + after|
          ensures IsWhitespace((before + after)[i])
        {
          if i >= |before| {
            assert (before + after)[i] == after[i - |before|];
          }
        }
      }
      return;
    }
    TrimStartSkips(before, t + after);
    assert before + t + after == before + (t + after);
    TrimEndSkips(t, after);
  }

  lemma {:induction false} TrimStartSkips(w: string, s: string)
    requires AllWhitespace(w)
    requires s == [] || !IsWhitespace(s[0])
    ensures TrimStart(w + s) == s
  {
    if w != [] {
      assert (w + s)[1..] == w[1..] + s;
      TrimStartSkips(w[1..], s);
    }
  }

  lemma {:induction false} TrimEndSkips(s: string, w: string)
    requires AllWhitespace(w)
    requires s == [] || !IsWhitespace(s[|s| - 1])
    ensures TrimEnd(s + w) == s
  {
    if w != [] {
      assert (s + w)[..|s + w| - 1] == s + w[..|w| - 1];
      TrimEndSkips(s, w[..|w| - 1]);
    } else {
      assert s + w == s;
    }
  }
}

=== FILE: environment_create_modal.dfy ===
/**
 * The environment creation dialog: the name rule, the submit gate, the payload
 * it sends and what the form keeps after success or failure.
 */
module EnvironmentCreateModal {
  import opened Wrappers
  import opened Http
  import opened EnvironmentTypes

  const MaxNameLength: nat := 15
  const RequiredMessage := "Name is required"
  const TooLongMessage := "Name must be 15 characters or less"
  const CharsetMessage := "Name can only contain lowercase letters, numbers, hyphens, and underscores"

  /** One character of the class `[a-z0-9_-]`. */
  predicate AllowedChar(c: char)
  {
    ('a' <= c <= 'z') || ('0' <= c <= '9') || c == '_' || c == '-'
  }

  /** The regular expression `/^[a-z0-9_-]+$/`: one allowed character, then the rest. */
  predicate MatchesNamePattern(v: string)
  {
    v != [] && AllowedChar(v[0]) && (|v| == 1 || MatchesNamePattern(v[1..]))
  }

  lemma {:induction false} MatchesNamePatternIff(v: string)
    ensures MatchesNamePattern(v) <==> v != [] && forall i :: 0 <= i < |v| ==> AllowedChar(v[i])
  {
    if |v| > 1 {
      MatchesNamePatternIff(v[1..]);
      assert forall i :: 1 <= i < |v| ==> v[i] == v[1..][i - 1];
    }
  }

  /** `validateName`: the first failing rule's message, or None for a valid name.
      Emptiness is checked first, then length, then the character class. */
  function ValidateName(v: string): (r: Option<string>)
    ensures r.None? <==> 1 <= |v| <= MaxNameLength && forall i :: 0 <= i < |v| ==> AllowedChar(v[i])
    ensures v == [] ==> r == Some(RequiredMessage)
    ensures |v| > MaxNameLength ==> r == Some(TooLongMessage)
    ensures 1 <= |v| <= MaxNameLength && (exists i :: 0 <= i < |v| && !AllowedChar(v[i])) ==>
              r == Some(CharsetMessage)
  {
    MatchesNamePatternIff(v);
    if v == [] then Some(RequiredMessage)
    else if |v| > MaxNameLength then Some(TooLongMessage)
    else if !MatchesNamePattern(v) then Some(CharsetMessage)
    else None
  }

  /** The examples the naming rule is documented with. */
  lemma ValidateNameExamples()
    ensures ValidateName("prod-1") == None
    ensures ValidateName("prod_db") == None
    ensures ValidateName("Prod") == Some(CharsetMessage)
    ensures ValidateName("prod db") == Some(CharsetMessage)
    ensures ValidateName("aaaaaaaaaaaaaaaa") == Some(TooLongMessage)
    ensures ValidateName("") == Some(RequiredMessage)
  {
    assert !AllowedChar("Prod"[0]);
    assert !AllowedChar("prod db"[4]);
  }

  /** The dialog's state. */
  datatype Form = Form(name: string, description: string, loading: bool, error: Option<string>)

  /** Typing in the name field replaces the name and clears the error. */
  function EditName(f: Form, v: string): (r: Form)
    ensures r.name == v && r.error.None?
    ensures r.description == f.description && r.loading == f.loading
  {
    f.(name := v, error := None)
  }

  /** What pressing submit leads to: the form shows a validation error, or it
      enters loading and `createEnvironment` is called with `input`. */
  datatype SubmitStep = Invalid(form: Form) | Submitting(form: Form, input: CreateEnvironmentInput)

  /** `description || undefined` */
  function OptionalDescription(d: string): (r: Option<string>)
    ensures r.None? <==> d == ""
    ensures r.Some? ==> r.value == d
  {
    if d == "" then None else Some(d)
  }

  /** `handleSubmit` up to the awaited call. */
  function Submit(f: Form): (s: SubmitStep)
    ensures s.Invalid? <==> ValidateName(f.name).Some?
    ensures s.Invalid? ==> s.form == f.(error := ValidateName(f.name))
    ensures s.Submitting? ==> s.input.name == f.name
    ensures s.Submitting? ==> s.input.description == OptionalDescription(f.description)
    ensures s.Submitting? ==> s.form == f.(loading := true, error := None)
  {
    match ValidateName(f.name)
    case Some(message) => Invalid(f.(error := Some(message)))
    case None =>
      Submitting(f.(loading := true, error := None),
                 CreateEnvironmentInput(f.name, OptionalDescription(f.description)))
  }

  /** The form after `createEnvironment` settled, and whether `onClose` was called. */
  datatype Completion = Completion(form: Form, closed: bool)

  /** The `try`/`catch`/`finally` after the awaited call. */
  function SubmitCompleted(f: Form, outcome: Settled<EnvironmentWithCounts>): (c: Completion)
    ensures !c.form.loading
    ensures c.closed <==> outcome.Resolved?
    ensures outcome.Resolved? ==> c.form.name == "" && c.form.description == "" && c.form.error == f.error
    ensures outcome.Threw? ==> c.form.name == f.name && c.form.description == f.description
    ensures outcome.Threw? && outcome.thrown.ErrorObject? ==> c.form.error == Some(outcome.thrown.message)
    ensures outcome.Threw? && outcome.thrown.OtherValue? ==> c.form.error == f.error
  {
    match outcome
    case Resolved(_) => Completion(f.(name := "", description := "", loading := false), true)
    case Threw(t) =>
      var error := if t.ErrorObject? then Some(t.message) else f.error;
      Completion(f.(error := error, loading := false), false)
  }

  /** A click on the backdrop itself closes the dialog only when it is not loading. */
  function BackdropCloses(f: Form, onBackdrop: bool): (closes: bool)
    ensures closes ==> onBackdrop && !f.loading
    ensures !f.loading && onBackdrop ==> closes
  {
    onBackdrop && !f.loading
  }

  /** A click inside the dialog never closes it, and a backdrop click is ignored while a
      valid submission is in flight but not after a rejected one. */
  lemma {:induction false} BackdropIgnoredWhileSubmitting(f: Form)
    requires !f.loading
    ensures !BackdropCloses(f, false) && BackdropCloses(f, true)
    ensures Submit(f).Invalid? ==> BackdropCloses(Submit(f).form, true)
    ensures Submit(f).Submitting? ==> !BackdropCloses(Submit(f).form, true)
  {
  }
}

=== FILE: environment_delete_modal.dfy ===
/**
 * The environment deletion dialog: the attached-resources guard, the call it
 * makes, button enablement and the pluralised resource summary.
 */
module EnvironmentDeleteModal {
  import opened Wrappers
  import opened Text
  import opened Http
  import opened EnvironmentTypes

  /** `hasResources` */
  function HasResources(c: ResourceCounts): (b: bool)
    ensures b <==> c != ResourceCounts(0, 0)
  {
    c.secrets > 0 || c.variables > 0
  }

  const AttachedPrefix := "Cannot delete environment with attached resources ("
  const SecretsSeparator := " secrets, "
  const VariablesSuffix := " variables)"

  /** The guard's error, stating both counts; it is recognised as a resource conflict
      wherever it is shown. */
  function AttachedMessage(c: ResourceCounts): (m: string)
    ensures Contains(m, "attached resources")
  {
    var rest := " (" + CountsText(c);
    assert AttachedPrefix + CountsText(c) == "Cannot delete environment with " + "attached resources" + rest;
    ContainsInfix("Cannot delete environment with ", "attached resources", rest);
    AttachedPrefix + CountsText(c)
  }

  /** "N secrets, M variables)" */
  function CountsText(c: ResourceCounts): string
  {
    NatToString(c.secrets) + (SecretsSeparator + (NatToString(c.variables) + VariablesSuffix))
  }

  lemma {:induction false} CountsTextInjective(c: ResourceCounts, d: ResourceCounts)
    requires CountsText(c) == CountsText(d)
    ensures c == d
  {
    var x, y := NatToString(c.variables), NatToString(d.variables);
    DigitRunUnique(NatToString(c.secrets), SecretsSeparator + (x + VariablesSuffix),
                   NatToString(d.secrets), SecretsSeparator + (y + VariablesSuffix));
    CommonPrefix(SecretsSeparator, x + VariablesSuffix, y + VariablesSuffix);
    DigitRunUnique(x, VariablesSuffix, y, VariablesSuffix);
    NatToStringInjective(c.secrets, d.secrets);
    NatToStringInjective(c.variables, d.variables);
  }

  /** The guard's message names the counts exactly: different counts give different messages. */
  lemma AttachedMessageStatesCounts(c: ResourceCounts, d: ResourceCounts)
    requires AttachedMessage(c) == AttachedMessage(d)
    ensures c == d
  {
    CommonPrefix(AttachedPrefix, CountsText(c), CountsText(d));
    CountsTextInjective(c, d);
  }

  /** The dialog's state. */
  datatype DeleteModal = DeleteModal(environment: EnvironmentWithCounts, loading: bool, error: Option<string>)

  /** Opening the dialog clears a previous error. */
  function Open(m: DeleteModal): (r: DeleteModal)
    ensures r.error.None? && r.environment == m.environment && r.loading == m.loading
  {
    m.(error := None)
  }

  /** What pressing delete leads to: the guard refuses, or `deleteEnvironment(id)` is called. */
  datatype DeleteStep = Blocked(modal: DeleteModal) | Deleting(modal: DeleteModal, environmentId: string)

  /** `handleDelete` up to the awaited call. */
  function HandleDelete(m: DeleteModal): (s: DeleteStep)
    ensures s.Blocked? <==> HasResources(m.environment.count)
    ensures s.Blocked? ==> s.modal == m.(error := Some(AttachedMessage(m.environment.count)))
    ensures s.Deleting? ==> s.environmentId == m.environment.environment.id
    ensures s.Deleting? ==> s.modal == m.(loading := true, error := None)
  {
    if HasResources(m.environment.count) then
      Blocked(m.(error := Some(AttachedMessage(m.environment.count))))
    else
      Deleting(m.(loading := true, error := None), m.environment.environment.id)
  }

  /** The dialog after `deleteEnvironment` settled, and whether `onClose` was called. */
  datatype Completion = Completion(modal: DeleteModal, closed: bool)

  function DeleteCompleted(m: DeleteModal, outcome: Settled<bool>): (c: Completion)
    ensures !c.modal.loading
    ensures c.closed <==> outcome.Resolved?
    ensures c.modal.environment == m.environment
    ensures outcome.Threw? && outcome.thrown.ErrorObject? ==> c.modal.error == Some(outcome.thrown.message)
    ensures outcome.Resolved? || outcome.thrown.OtherValue? ==> c.modal.error == m.error
  {
    match outcome
    case Resolved(_) => Completion(m.(loading := false), true)
    case Threw(t) =>
      var error := if t.ErrorObject? then Some(t.message) else m.error;
      Completion(m.(error := error, loading := false), false)
  }

  /** The delete button is disabled while loading or while resources are attached. */
  function DeleteDisabled(m: DeleteModal): (b: bool)
    ensures !b <==> !m.loading && m.environment.count == ResourceCounts(0, 0)
  {
    m.loading || HasResources(m.environment.count)
  }

  /** The plural suffix of "secret"/"variable". */
  function Plural(n: nat): (s: string)
    ensures s == "s" <==> n != 1
    ensures s == "" <==> n == 1
  {
    if n != 1 then "s" else ""
  }

  /** The warning's summary, e.g. "1 secret and 2 variables". */
  function ResourceSummary(c: ResourceCounts): string
  {
    NatToString(c.secrets) + (" secret" + (Plural(c.secrets) + (" and "
      + (NatToString(c.variables) + (" variable" + Plural(c.variables))))))
  }

  /** The summary names the counts exactly: different counts give different summaries. */
  lemma {:induction false} ResourceSummaryStatesCounts(c: ResourceCounts, d: ResourceCounts)
    requires ResourceSummary(c) == ResourceSummary(d)
    ensures c == d
  {
    SummaryStatesSecrets(c, d);
    DigitRunUnique(NatToString(c.variables), " variable" + Plural(c.variables),
                   NatToString(d.variables), " variable" + Plural(d.variables));
    NatToStringInjective(c.variables, d.variables);
  }

  /** Equal summaries have the same secrets count and the same variables part. */
  lemma {:induction false} SummaryStatesSecrets(c: ResourceCounts, d: ResourceCounts)
    requires ResourceSummary(c) == ResourceSummary(d)
    ensures c.secrets == d.secrets
    ensures NatToString(c.variables) + (" variable" + Plural(c.variables))
         == NatToString(d.variables) + (" variable" + Plural(d.variables))
  {
    var vc := NatToString(c.variables) + (" variable" + Plural(c.variables));
    var vd := NatToString(d.variables) + (" variable" + Plural(d.variables));
    DigitRunUnique(NatToString(c.secrets), " secret" + (Plural(c.secrets) + (" and " + vc)),
                   NatToString(d.secrets), " secret" + (Plural(d.secrets) + (" and " + vd)));
    NatToStringInjective(c.secrets, d.secrets);
    var p := " secret" + Plural(c.secrets) + " and ";
    assert " secret" + (Plural(c.secrets) + (" and " + vc)) == p + vc;
    assert " secret" + (Plural(d.secrets) + (" and " + vd)) == p + vd;
    CommonPrefix(p, vc, vd);
  }

  lemma ResourceSummaryExample()
    ensures ResourceSummary(ResourceCounts(1, 2)) == "1 secret and 2 variables"
  {
  }

  /** A click on the backdrop itself closes the dialog only when it is not loading. */
  function BackdropCloses(m: DeleteModal, onBackdrop: bool): (closes: bool)
    ensures closes ==> onBackdrop && !m.loading
    ensures !m.loading && onBackdrop ==> closes
  {
    onBackdrop && !m.loading
  }

  /** A click inside the dialog never closes it, and a backdrop click is ignored while the
      delete runs but not after the guard refused it. */
  lemma {:induction false} BackdropIgnoredWhileDeleting(m: DeleteModal)
    requires !m.loading
    ensures !BackdropCloses(m, false) && BackdropCloses(m, true)
    ensures HandleDelete(m).Blocked? ==> BackdropCloses(HandleDelete(m).modal, true)
    ensures HandleDelete(m).Deleting? ==> !BackdropCloses(HandleDelete(m).modal, true)
  {
  }

  /** Pressing the button can only call `deleteEnvironment` when it is enabled. */
  lemma DeleteOnlyWhenEnabled(m: DeleteModal)
    requires !m.loading
    ensures HandleDelete(m).Deleting? <==> !DeleteDisabled(m)
  {
  }
}

=== FILE: environment_list.dfy ===
/**
 * The environment list panel: who may modify, when creation is offered, and
 * which controls and notices the rendered view carries.
 */
module EnvironmentList {
  import opened Wrappers
  import opened ApplicationTypes
  import opened EnvironmentTypes

  /** The most environments an application is shown as able to hold. */
  const MaxEnvironments: nat := 10

  /** `canModify`: the caller's role is OWNER or EDITOR. */
  function CanModify(role: Option<Role>): (b: bool)
    ensures b <==> role == Some(Owner) || role == Some(Editor)
  {
    match role
    case Some(Owner) => true
    case Some(Editor) => true
    case _ => false
  }

  /** Modifying is exactly having at least EDITOR privilege. */
  lemma CanModifyIsAtLeastEditor(role: Option<Role>)
    ensures CanModify(role) <==> role.Some? && Privilege(role.value) >= Privilege(Editor)
  {
  }

  /** `canCreate`: may modify, and fewer than ten environments exist. */
  function CanCreate(role: Option<Role>, count: nat): (b: bool)
    ensures b <==> role.Some? && Privilege(role.value) >= Privilege(Editor) && count < MaxEnvironments
    ensures role == Some(Viewer) || role.None? || count >= MaxEnvironments ==> !b
  {
    CanModify(role) && count < MaxEnvironments
  }

  /** `!canCreate && environments.length >= 10`: the "Maximum environment limit reached" notice. */
  function LimitNotice(role: Option<Role>, count: nat): (b: bool)
    ensures b <==> count >= MaxEnvironments
  {
    !CanCreate(role, count) && count >= MaxEnvironments
  }

  /** What the panel renders. */
  datatype View =
    | Spinner
    | ErrorText(message: string)
    | EmptyState(createButton: bool)
    | Listing(createButton: bool, rowControls: bool, limitNotice: bool, rows: seq<EnvironmentWithCounts>)

  /** The panel for a role and the hook's current state. */
  function Render(role: Option<Role>, loading: bool, error: Option<string>,
                  environments: seq<EnvironmentWithCounts>): (v: View)
    ensures loading ==> v == Spinner
    ensures !loading && Truthy(error) ==> v == ErrorText(error.value)
    ensures v.EmptyState? <==> !loading && !Truthy(error) && environments == []
    ensures !loading && !Truthy(error) && environments != [] ==> v.Listing?
    ensures v.EmptyState? ==> (v.createButton <==> CanModify(role))
    ensures v.Listing? ==> v.rows == environments
    ensures v.Listing? ==> (v.createButton <==> CanCreate(role, |environments|))
    ensures v.Listing? ==> (v.rowControls <==> CanModify(role))
    ensures v.Listing? ==> (v.limitNotice <==> |environments| >= MaxEnvironments)
  {
    if loading then Spinner
    else if Truthy(error) then ErrorText(error.value)
    else if environments == [] then EmptyState(CanCreate(role, 0))
    else Listing(CanCreate(role, |environments|), CanModify(role),
                 LimitNotice(role, |environments|), environments)
  }

  /** Once ten environments exist no role is offered creation, and the notice shows. */
  lemma NoRoleCreatesAtTheCap(role: Option<Role>, environments: seq<EnvironmentWithCounts>)
    requires |environments| >= MaxEnvironments
    ensures !CanCreate(role, |environments|)
    ensures Render(role, false, None, environments).Listing?
    ensures Render(role, false, None, environments).limitNotice
    ensures !Render(role, false, None, environments).createButton
  {
  }
}

=== FILE: environment_types.dfy ===
/** The environment shapes the client exchanges with the environment routes. */
module EnvironmentTypes {
  import opened Wrappers

  /** An environment; it always belongs to one application and its description may be null. */
  datatype Environment = Environment(
    id: string,
    name: string,
    description: Option<string>,
    applicationId: string,
    createdAt: string,
    updatedAt: string)

  /** The numbers of secrets and variables attached to an environment. */
  datatype ResourceCounts = ResourceCounts(secrets: nat, variables: nat)

  /** An environment together with its attached-resource counts. */
  datatype EnvironmentWithCounts = EnvironmentWithCounts(environment: Environment, count: ResourceCounts)

  function EnvironmentId(e: EnvironmentWithCounts): string
  {
    e.environment.id
  }

  /** The create payload: a required name and an optional description. */
  datatype CreateEnvironmentInput = CreateEnvironmentInput(name: string, description: Option<string>)

  /** The update payload: only an optional description, which may be null
      (`None` is an absent field, `Some(None)` an explicit null). */
  datatype UpdateEnvironmentInput = UpdateEnvironmentInput(description: Option<Option<string>>)

  /** A JSON value as it appears in these payloads. */
  datatype JsonValue = JString(text: string) | JNull

  /** The members `JSON.stringify` writes for a create payload: `undefined` fields are omitted. */
  function CreateBody(input: CreateEnvironmentInput): (m: map<string, JsonValue>)
    ensures "name" in m && m["name"] == JString(input.name)
    ensures "description" in m <==> input.description.Some?
    ensures input.description.Some? ==> m["description"] == JString(input.description.value)
    ensures m.Keys <= {"name", "description"}
  {
    var base := map["name" := JString(input.name)];
    match input.description
    case Some(d) => base["description" := JString(d)]
    case None => base
  }

  /** The members `JSON.stringify` writes for an update payload. */
  function UpdateBody(input: UpdateEnvironmentInput): (m: map<string, JsonValue>)
    ensures m.Keys <= {"description"}
    ensures "description" in m <==> input.description.Some?
    ensures input.description == Some(None) ==> m["description"] == JNull
    ensures input.description.Some? && input.description.value.Some? ==>
              m["description"] == JString(input.description.value.value)
  {
    match input.description
    case None => map[]
    case Some(None) => map["description" := JNull]
    case Some(Some(d)) => map["description" := JString(d)]
  }
}

=== FILE: http.dfy ===
/**
 * What a browser-side `fetch` exchange can produce, as the client hooks see it.
 * The network, `response.json()` and the thrown JavaScript values are inputs here.
 */
module Http {
  import opened Wrappers

  /** A value that reaches a `catch` clause: an `Error` object (possibly a
      `TypeError`, as thrown by a failed `fetch`) or any other thrown value. */
  datatype Thrown = ErrorObject(isTypeError: bool, message: string) | OtherValue

  /** `err instanceof Error ? err.message : fallback` */
  function MessageOr(t: Thrown, fallback: string): (m: string)
    ensures t.ErrorObject? ==> m == t.message
    ensures t.OtherValue? ==> m == fallback
  {
    match t
    case ErrorObject(_, message) => message
    case OtherValue => fallback
  }

  /** How an awaited promise settles: with a value, or by throwing. */
  datatype Settled<T> = Resolved(value: T) | Threw(thrown: Thrown)

  /** A JSON body: either parsed into a value, or `response.json()` threw. */
  datatype Json<T> = Parsed(value: T) | Unparseable(parseError: Thrown)

  /** The `{ error }` object the routes send with a non-ok status. */
  datatype ErrorBody = ErrorBody(error: Option<string>)

  /** One `fetch` call: it rejects, or a response arrives that is ok (2xx) or not. */
  datatype Reply<T> =
    | Rejected(thrown: Thrown)
    | Failed(status: nat, errorBody: Json<ErrorBody>)
    | Succeeded(body: Json<T>)

  /** `data.error || fallback`: the server's message when it is a non-empty string. */
  function ServerMessage(body: ErrorBody, fallback: string): (m: string)
    ensures body.error.Some? && body.error.value != "" ==> m == body.error.value
    ensures body.error.None? || body.error.value == "" ==> m == fallback
  {
    match body.error
    case Some(e) => if e != "" then e else fallback
    case None => fallback
  }
}

=== FILE: list_ops.dfy ===
/**
 * The list transitions the client hooks apply to their React state after a
 * successful create, update or delete: add at either end, replace by id, and
 * filter out by id. Entries are identified through a `key` projection.
 */
module ListOps {

  /** `a` is `b` with some entries dropped and the rest in their original order. */
  ghost predicate SubsequenceOf<T>(a: seq<T>, b: seq<T>)
    decreases |b|
  {
    a == [] || (b != [] && ((a[0] == b[0] && SubsequenceOf(a[1..], b[1..])) || SubsequenceOf(a, b[1..])))
  }

  /** `[x, ...xs]` */
  function Prepend<T>(x: T, xs: seq<T>): (r: seq<T>)
    ensures |r| == |xs| + 1 && r[0] == x && r[1..] == xs
  {
    [x] + xs
  }

  /** `[...xs, x]` */
  function Append<T>(xs: seq<T>, x: T): (r: seq<T>)
    ensures |r| == |xs| + 1 && r[|xs|] == x && r[..|xs|] == xs
  {
    xs + [x]
  }

  /** `xs.map(e => key(e) === id ? y : e)` */
  function ReplaceById<T, K(==)>(xs: seq<T>, key: T -> K, id: K, y: T): (r: seq<T>)
    ensures |r| == |xs|
    ensures forall i :: 0 <= i < |xs| && key(xs[i]) == id ==> r[i] == y
    ensures forall i :: 0 <= i < |xs| && key(xs[i]) != id ==> r[i] == xs[i]
  {
    if xs == [] then []
    else [if key(xs[0]) == id then y else xs[0]] + ReplaceById(xs[1..], key, id, y)
  }

  /** `xs.filter(e => key(e) !== id)` */
  function RemoveById<T(!new), K(==)>(xs: seq<T>, key: T -> K, id: K): (r: seq<T>)
    ensures forall i :: 0 <= i < |r| ==> key(r[i]) != id
    ensures forall x :: multiset(r)[x] == if key(x) == id then 0 else multiset(xs)[x]
    ensures SubsequenceOf(r, xs)
  {
    if xs == [] then []
    else if key(xs[0]) == id then
      var r := RemoveById(xs[1..], key, id);
      assert xs == [xs[0]] + xs[1..];
      r
    else
      var rest := RemoveById(xs[1..], key, id);
      assert xs == [xs[0]] + xs[1..];
      var r := [xs[0]] + rest;
      assert r[1..] == rest;
      r
  }

  /** No entry of `xs` carries the id `id`. */
  predicate Fresh<T, K(==)>(xs: seq<T>, key: T -> K, id: K)
  {
    forall i :: 0 <= i < |xs| ==> key(xs[i]) != id
  }

  /** Removing an id nobody carries changes nothing. */
  lemma {:induction false} RemoveAbsent<T(!new), K>(xs: seq<T>, key: T -> K, id: K)
    requires Fresh(xs, key, id)
    ensures RemoveById(xs, key, id) == xs
  {
    if xs != [] {
      RemoveAbsent(xs[1..], key, id);
    }
  }

  /** Deleting twice is deleting once. */
  lemma RemoveIdempotent<T(!new), K>(xs: seq<T>, key: T -> K, id: K)
    ensures RemoveById(RemoveById(xs, key, id), key, id) == RemoveById(xs, key, id)
  {
    RemoveAbsent(RemoveById(xs, key, id), key, id);
  }

  /** Replacing an id nobody carries changes nothing. */
  lemma {:induction false} ReplaceAbsent<T, K>(xs: seq<T>, key: T -> K, id: K, y: T)
    requires Fresh(xs, key, id)
    ensures ReplaceById(xs, key, id, y) == xs
  {
    if xs != [] {
      ReplaceAbsent(xs[1..], key, id, y);
    }
  }

  /** Removing the freshly appended entry's id restores the list it was appended to. */
  lemma {:induction false} RemoveUndoesAppend<T(!new), K>(xs: seq<T>, key: T -> K, x: T)
    requires Fresh(xs, key, key(x))
    ensures RemoveById(Append(xs, x), key, key(x)) == xs
    decreases |xs|
  {
    if xs == [] {
      assert Append(xs, x) == [x];
    } else {
      assert Append(xs, x)[1..] == Append(xs[1..], x);
      RemoveUndoesAppend(xs[1..], key, x);
    }
  }

  /** Removing the freshly prepended entry's id restores the list it was prepended to. */
  lemma RemoveUndoesPrepend<T(!new), K>(xs: seq<T>, key: T -> K, x: T)
    requires Fresh(xs, key, key(x))
    ensures RemoveById(Prepend(x, xs), key, key(x)) == xs
  {
    assert Prepend(x, xs)[1..] == xs;
    RemoveAbsent(xs, key, key(x));
  }

  /** An update keeps every entry's id when the new value keeps the id it replaces,
      so a later delete of that id behaves as if no update had happened. */
  lemma {:induction false} RemoveAfterReplace<T(!new), K>(xs: seq<T>, key: T -> K, id: K, y: T)
    requires key(y) == id
    ensures RemoveById(ReplaceById(xs, key, id, y), key, id) == RemoveById(xs, key, id)
  {
    if xs != [] {
      assert ReplaceById(xs, key, id, y)[1..] == ReplaceById(xs[1..], key, id, y);
      RemoveAfterReplace(xs[1..], key, id, y);
    }
  }
}

=== FILE: text.dfy ===
/**
 * The string operations the core relies on: JavaScript's `String.prototype.trim`,
 * `String.prototype.includes`, and the decimal rendering of a number inside a
 * template literal.
 */
module Text {

  /** The characters `trim` removes: WhiteSpace and LineTerminator of ECMAScript
      (tab, LF, VT, FF, CR, space, NBSP, the Zs separators, LS, PS and the BOM). */
  predicate IsWhitespace(c: char)
  {
    || c == '\t' || c == '\n' || c == '\U{000B}' || c == '\U{000C}' || c == '\r'
    || c == ' ' || c == '\U{00A0}' || c == '\U{1680}'
    || ('\U{2000}' <= c <= '\U{200A}')
    || c == '\U{2028}' || c == '\U{2029}' || c == '\U{202F}' || c == '\U{205F}'
    || c == '\U{3000}' || c == '\U{FEFF}'
  }

  predicate AllWhitespace(s: string)
  {
    forall i :: 0 <= i < |s| ==> IsWhitespace(s[i])
  }

  /** Drops the leading whitespace. */
  function TrimStart(s: string): (r: string)
    ensures |r| <= |s| && r == s[|s| - |r|..]
    ensures AllWhitespace(s[..|s| - |r|])
    ensures r == [] || !IsWhitespace(r[0])
  {
    if s != [] && IsWhitespace(s[0]) then TrimStart(s[1..]) else s
  }

  /** Drops the trailing whitespace. */
  function TrimEnd(s: string): (r: string)
    ensures |r| <= |s| && r == s[..|r|]
    ensures AllWhitespace(s[|r|..])
    ensures r == [] || !IsWhitespace(r[|r| - 1])
  {
    if s != [] && IsWhitespace(s[|s| - 1]) then TrimEnd(s[..|s| - 1]) else s
  }

  /** `s.trim()`: the longest infix of `s` that neither starts nor ends with whitespace. */
  function Trim(s: string): (r: string)
    ensures |r| <= |s|
    ensures r == [] || (!IsWhitespace(r[0]) && !IsWhitespace(r[|r| - 1]))
    ensures r == [] <==> AllWhitespace(s)
    ensures exists k :: 0 <= k <= |s| - |r| && r == s[k..k + |r|]
                        && AllWhitespace(s[..k]) && AllWhitespace(s[k + |r|..])
  {
    var t := TrimStart(s);
    var r := TrimEnd(t);
    WhitespaceAround(s, t, r);
    r
  }

  /** Cutting whitespace off the front of `s` and then off the back of the rest leaves
      an infix of `s` with only whitespace on either side. */
  lemma WhitespaceAround(s: string, t: string, r: string)
    requires |t| <= |s| && t == s[|s| - |t|..] && AllWhitespace(s[..|s| - |t|])
    requires |r| <= |t| && r == t[..|r|] && AllWhitespace(t[|r|..])
    requires t == [] || !IsWhitespace(t[0])
    ensures var k := |s| - |t|;
            r == s[k..k + |r|] && AllWhitespace(s[..k]) && AllWhitespace(s[k + |r|..])
    ensures r == [] <==> AllWhitespace(s)
    ensures r == [] || !IsWhitespace(r[0])
    ensures exists k :: 0 <= k <= |s| - |r| && r == s[k..k + |r|]
                        && AllWhitespace(s[..k]) && AllWhitespace(s[k + |r|..])
  {
    var k := |s| - |t|;
    if r != [] {
      assert r[0] == t[0] == s[k];
    }
    forall i | k + |r| <= i < |s| ensures IsWhitespace(s[i]) {
      assert s[i] == t[i - k] == t[|r|..][i - k - |r|];
    }
    forall i | 0 <= i < |s| ensures r == [] ==> IsWhitespace(s[i]) {
      if i < k {
        assert s[i] == s[..k][i];
      }
    }
    assert s[k + |r|..] == s[k..][|r|..];
    assert r == s[k..k + |r|] && AllWhitespace(s[..k]) && AllWhitespace(s[k + |r|..]);
  }

  /** Trimming a value that neither starts nor ends with whitespace leaves it as it is. */
  lemma {:induction false} TrimOfTrimmed(s: string)
    requires s == [] || (!IsWhitespace(s[0]) && !IsWhitespace(s[|s| - 1]))
    ensures Trim(s) == s
  {
  }

  /** Trimming twice is trimming once. */
  lemma TrimIdempotent(s: string)
    ensures Trim(Trim(s)) == Trim(s)
  {
    TrimOfTrimmed(Trim(s));
  }

  /** `s.startsWith(p)` */
  predicate IsPrefix(p: string, s: string)
  {
    |p| <= |s| && s[..|p|] == p
  }

  /** `s.includes(needle)` */
  predicate Contains(s: string, needle: string)
    decreases |s|
  {
    IsPrefix(needle, s) || (s != [] && Contains(s[1..], needle))
  }

  /** `needle` occurs in `s` starting at offset `i`. */
  predicate OccursAt(s: string, needle: string, i: int)
  {
    0 <= i <= |s| - |needle| && s[i..i + |needle|] == needle
  }

  /** `s.includes(needle)` holds exactly when `needle` occurs at some offset of `s`. */
  lemma {:induction false} ContainsIffOccurs(s: string, needle: string)
    ensures Contains(s, needle) <==> exists i :: OccursAt(s, needle, i)
    decreases |s|
  {
    if IsPrefix(needle, s) {
      assert OccursAt(s, needle, 0);
    } else if s == [] {
    } else {
      ContainsIffOccurs(s[1..], needle);
      if exists i :: OccursAt(s, needle, i) {
        var i :| OccursAt(s, needle, i);
        assert i != 0;
        assert s[1..][i - 1..i - 1 + |needle|] == s[i..i + |needle|];
        assert OccursAt(s[1..], needle, i - 1);
      }
      if Contains(s[1..], needle) {
        var j :| OccursAt(s[1..], needle, j);
        assert s[1..][j..j + |needle|] == s[j + 1..j + 1 + |needle|];
        assert OccursAt(s, needle, j + 1);
      }
    }
  }

  /** A string built around `needle` contains it. */
  lemma {:induction false} ContainsInfix(a: string, needle: string, b: string)
    ensures Contains(a + needle + b, needle)
    decreases |a|
  {
    if a == [] {
      assert a + needle + b == needle + b;
      assert (needle + b)[..|needle|] == needle;
    } else {
      assert (a + needle + b)[1..] == a[1..] + needle + b;
      ContainsInfix(a[1..], needle, b);
    }
  }

  predicate IsDigit(c: char)
  {
    '0' <= c <= '9'
  }

  function DigitChar(d: nat): (c: char)
    requires d < 10
    ensures IsDigit(c) && (c as int) - ('0' as int) == d
  {
    (('0' as int) + d) as char
  }

  /** The decimal rendering of a non-negative number, `${n}` in a template literal. */
  function NatToString(n: nat): (r: string)
    ensures |r| >= 1
    ensures forall i :: 0 <= i < |r| ==> IsDigit(r[i])
    ensures r[0] == '0' ==> n == 0
    decreases n
  {
    if n < 10 then [DigitChar(n)] else NatToString(n / 10) + [DigitChar(n % 10)]
  }

  /** The number a string of decimal digits denotes. */
  function DigitsValue(s: string): nat
    requires forall i :: 0 <= i < |s| ==> IsDigit(s[i])
  {
    if s == [] then 0
    else
      assert IsDigit(s[|s| - 1]);
      DigitsValue(s[..|s| - 1]) * 10 + ((s[|s| - 1] as int) - ('0' as int))
  }

  /** Reading the rendered digits back yields the number: the rendering loses nothing. */
  lemma {:induction false} NatToStringRoundTrip(n: nat)
    ensures DigitsValue(NatToString(n)) == n
    decreases n
  {
    if n >= 10 {
      var r := NatToString(n);
      assert r[..|r| - 1] == NatToString(n / 10);
      NatToStringRoundTrip(n / 10);
    }
  }

  /** Distinct numbers render as distinct strings. */
  lemma NatToStringInjective(m: nat, n: nat)
    requires NatToString(m) == NatToString(n)
    ensures m == n
  {
    NatToStringRoundTrip(m);
    NatToStringRoundTrip(n);
  }

  /** The number of leading decimal digits. */
  function LeadingDigits(s: string): (n: nat)
    ensures n <= |s|
  {
    if s != [] && IsDigit(s[0]) then 1 + LeadingDigits(s[1..]) else 0
  }

  lemma {:induction false} LeadingDigitsOfRun(a: string, s: string)
    requires forall i :: 0 <= i < |a| ==> IsDigit(a[i])
    requires s != [] && !IsDigit(s[0])
    ensures LeadingDigits(a + s) == |a|
  {
    if a != [] {
      assert (a + s)[1..] == a[1..] + s;
      LeadingDigitsOfRun(a[1..], s);
    }
  }

  /** A run of digits followed by a non-digit splits a string in only one way. */
  lemma DigitRunUnique(a: string, s: string, b: string, t: string)
    requires forall i :: 0 <= i < |a| ==> IsDigit(a[i])
    requires forall i :: 0 <= i < |b| ==> IsDigit(b[i])
    requires s != [] && !IsDigit(s[0]) && t != [] && !IsDigit(t[0])
    requires a + s == b + t
    ensures a == b && s == t
  {
    LeadingDigitsOfRun(a, s);
    LeadingDigitsOfRun(b, t);
    assert a == (a + s)[..|a|] && b == (b + t)[..|b|];
    assert s == (a + s)[|a|..] && t == (b + t)[|b|..];
  }

  /** Equal strings with a common prefix agree after it. */
  lemma CommonPrefix(p: string, u: string, v: string)
    requires p + u == p + v
    ensures u == v
  {
    assert u == (p + u)[|p|..];
    assert v == (p + v)[|p|..];
  }
}

=== FILE: use_applications.dfy ===
/**
 * The `useApplications` hook: paged loading with its retry decision, `loadMore`,
 * `refresh`, and the list transitions after create, update and delete.
 * Timers are not run here: a retry is returned as the call to make and its delay.
 */
module UseApplications {
  import opened Wrappers
  import opened Text
  import opened Http
  import opened ListOps
  import opened ApplicationTypes

  const DefaultPageSize: nat := 6
  const MaxRetries: nat := 2
  const RetryUnitMs: nat := 1000
  const FallbackMessage := "An error occurred"

  /** The `page` counter starts at 1 and is only ever reset to 1 or advanced by one. */
  type PageNumber = n: nat | 1 <= n witness 1

  /** The hook's React state. */
  datatype HookState = HookState(
    applications: seq<Application>,
    loading: bool,
    loadingMore: bool,
    error: Option<string>,
    page: PageNumber,
    hasMore: bool)

  /** The state before the first fetch settles: page 1 is loading into an empty list. */
  function Initial(): (s: HookState)
    ensures s.applications == [] && s.loading && !s.loadingMore && s.error.None?
    ensures s.page == 1 && s.hasMore
  {
    HookState([], true, false, None, 1, true)
  }

  /** The arguments of one `fetchApplications(pageNum, reset, retryCount)` call. */
  datatype FetchCall = FetchCall(pageNum: nat, reset: bool, retryCount: nat)

  /** The synchronous start of a fetch: the first page shows the main spinner, later pages the footer one. */
  function BeginFetch(s: HookState, call: FetchCall): (r: HookState)
    ensures call.pageNum == 1 ==> r == s.(loading := true)
    ensures call.pageNum != 1 ==> r == s.(loadingMore := true)
  {
    if call.pageNum == 1 then s.(loading := true) else s.(loadingMore := true)
  }

  /** A retry the hook schedules with `setTimeout`. */
  datatype Retry = Retry(call: FetchCall, delayMs: nat)

  /** A completed attempt: the state after `finally`, and the retry scheduled, if any. */
  datatype Fetched = Fetched(state: HookState, retry: Option<Retry>)

  /** The delay before retry number `retryCount + 1`: 1000 ms, then 2000 ms. It grows
      linearly, although the source's comment calls it exponential. */
  function RetryDelay(retryCount: nat): (ms: nat)
    ensures retryCount == 0 ==> ms == 1000
    ensures retryCount > 0 ==> ms == RetryDelay(retryCount - 1) + 1000
    ensures retryCount == 1 ==> ms == 2000
  {
    RetryUnitMs * (retryCount + 1)
  }

  function ScheduleRetry(s: HookState, call: FetchCall): (f: Fetched)
  {
    Fetched(s.(loading := false, loadingMore := false),
            Some(Retry(call.(retryCount := call.retryCount + 1), RetryDelay(call.retryCount))))
  }

  /** The message thrown for a non-ok status; it mentions "fetch", whatever the status. */
  function StatusMessage(status: nat): (m: string)
    ensures Contains(m, "fetch")
  {
    var tail := " applications (" + NatToString(status) + ")";
    assert "Failed to fetch applications (" + NatToString(status) + ")" == "Failed to " + "fetch" + tail;
    ContainsInfix("Failed to ", "fetch", tail);
    "Failed to fetch applications (" + NatToString(status) + ")"
  }

  /** The message names the status: different statuses give different messages. */
  lemma StatusMessageNamesStatus(a: nat, b: nat)
    requires StatusMessage(a) == StatusMessage(b)
    ensures a == b
  {
    var p := "Failed to fetch applications (";
    assert StatusMessage(a) == p + (NatToString(a) + ")");
    assert StatusMessage(b) == p + (NatToString(b) + ")");
    CommonPrefix(p, NatToString(a) + ")", NatToString(b) + ")");
    DigitRunUnique(NatToString(a), ")", NatToString(b), ")");
    NatToStringInjective(a, b);
  }

  /** Whether the `catch` clause treats a thrown value as a network error worth retrying. */
  predicate LooksLikeNetworkError(t: Thrown)
  {
    t.ErrorObject? && (t.isTypeError || Contains(t.message, "fetch"))
  }

  /** The `catch` clause: retry while retries remain and the value looks like a network
      error, otherwise record its message. */
  function Caught(s: HookState, call: FetchCall, t: Thrown): (f: Fetched)
    ensures !f.state.loading && !f.state.loadingMore
    ensures f.state.applications == s.applications && f.state.hasMore == s.hasMore && f.state.page == s.page
    ensures f.retry.Some? <==> call.retryCount < MaxRetries && LooksLikeNetworkError(t)
    ensures f.retry.Some? ==> f.state.error == s.error
    ensures f.retry.Some? ==> f.retry.value == Retry(call.(retryCount := call.retryCount + 1), RetryDelay(call.retryCount))
    ensures f.retry.None? ==> f.state.error == Some(MessageOr(t, FallbackMessage))
  {
    if call.retryCount < MaxRetries && LooksLikeNetworkError(t) then ScheduleRetry(s, call)
    else Fetched(s.(error := Some(MessageOr(t, FallbackMessage)), loading := false, loadingMore := false), None)
  }

  /** A page that arrived: page 1 or a reset replaces the list, later pages are appended. */
  function ApplyPage(s: HookState, call: FetchCall, items: seq<Application>, pageSize: nat): (r: HookState)
    ensures call.reset || call.pageNum == 1 ==> r.applications == items
    ensures !call.reset && call.pageNum != 1 ==> r.applications == s.applications + items
    ensures r.hasMore <==> |items| == pageSize
    ensures r.error.None? && !r.loading && !r.loadingMore && r.page == s.page
  {
    var applications := if call.reset || call.pageNum == 1 then items else s.applications + items;
    s.(applications := applications, hasMore := |items| == pageSize, error := None,
       loading := false, loadingMore := false)
  }

  /** `fetchApplications` after its request, as the source writes it. The error thrown for a
      non-ok status reaches the same `catch` clause, and its message contains "fetch", so
      every non-ok status is retried while retries remain, not only server errors. */
  function FetchCompletedAsWritten(s: HookState, call: FetchCall, reply: Reply<seq<Application>>,
                                   pageSize: nat): (f: Fetched)
    ensures !f.state.loading && !f.state.loadingMore
    ensures reply.Failed? ==> (f.retry.Some? <==> call.retryCount < MaxRetries)
    ensures f.retry.Some? ==>
              && call.retryCount < MaxRetries
              && f.retry.value.call == call.(retryCount := call.retryCount + 1)
              && f.retry.value.delayMs == RetryUnitMs * (call.retryCount + 1)
              && f.state.applications == s.applications && f.state.error == s.error
    ensures reply.Failed? && f.retry.None? ==>
              f.state.error == Some(StatusMessage(reply.status)) && f.state.applications == s.applications
    ensures reply.Rejected? ==> f == Caught(s, call, reply.thrown)
    ensures reply.Succeeded? && reply.body.Unparseable? ==> f == Caught(s, call, reply.body.parseError)
    ensures reply.Succeeded? && reply.body.Parsed? ==>
              f == Fetched(ApplyPage(s, call, reply.body.value, pageSize), None)
  {
    match reply
    case Failed(status, _) =>
      if status >= 500 && call.retryCount < MaxRetries then ScheduleRetry(s, call)
      else Caught(s, call, ErrorObject(false, StatusMessage(status)))
    case Rejected(t) => Caught(s, call, t)
    case Succeeded(Unparseable(t)) => Caught(s, call, t)
    case Succeeded(Parsed(items)) => Fetched(ApplyPage(s, call, items, pageSize), None)
  }

  /** A 404 on the first attempt is retried by the code as written, but not by the
      corrected definition. */
  lemma AsWrittenRetriesNotFound(s: HookState, body: Json<ErrorBody>)
    ensures FetchCompletedAsWritten(s, FetchCall(1, true, 0), Failed(404, body), DefaultPageSize).retry.Some?
    ensures FetchCompleted(s, FetchCall(1, true, 0), Failed(404, body), DefaultPageSize).retry.None?
  {
  }

  /** `fetchApplications` after its request, with the retry policy its comments state:
      a non-ok status is retried only when it is a server error (>= 500) and retries
      remain; a thrown value only when it looks like a network error. */
  function FetchCompleted(s: HookState, call: FetchCall, reply: Reply<seq<Application>>,
                          pageSize: nat): (f: Fetched)
    ensures !f.state.loading && !f.state.loadingMore
    ensures f.retry.Some? ==>
              && call.retryCount < MaxRetries
              && f.retry.value.call == call.(retryCount := call.retryCount + 1)
              && f.retry.value.delayMs == RetryUnitMs * (call.retryCount + 1)
              && f.state.applications == s.applications && f.state.error == s.error
    ensures reply.Failed? ==> (f.retry.Some? <==> reply.status >= 500 && call.retryCount < MaxRetries)
    ensures reply.Failed? && f.retry.None? ==>
              f.state.error == Some(StatusMessage(reply.status)) && f.state.applications == s.applications
    ensures reply.Rejected? ==> f == Caught(s, call, reply.thrown)
    ensures reply.Succeeded? && reply.body.Unparseable? ==> f == Caught(s, call, reply.body.parseError)
    ensures reply.Succeeded? && reply.body.Parsed? ==>
              f == Fetched(ApplyPage(s, call, reply.body.value, pageSize), None)
  {
    match reply
    case Failed(status, _) =>
      if status >= 500 && call.retryCount < MaxRetries then ScheduleRetry(s, call)
      else Fetched(s.(error := Some(StatusMessage(status)), loading := false, loadingMore := false), None)
    case Rejected(t) => Caught(s, call, t)
    case Succeeded(Unparseable(t)) => Caught(s, call, t)
    case Succeeded(Parsed(items)) => Fetched(ApplyPage(s, call, items, pageSize), None)
  }

  /** The code as written and the corrected rule part ways on exactly one kind of reply:
      a non-ok status below 500 while retries remain, which only the code as written retries. */
  lemma {:induction false} RulesDifferOnlyOnClientErrors(s: HookState, call: FetchCall,
                                                          reply: Reply<seq<Application>>, pageSize: nat)
    ensures FetchCompletedAsWritten(s, call, reply, pageSize) != FetchCompleted(s, call, reply, pageSize)
        <==> reply.Failed? && reply.status < 500 && call.retryCount < MaxRetries
    ensures reply.Failed? && reply.status < 500 && call.retryCount < MaxRetries ==>
              && FetchCompletedAsWritten(s, call, reply, pageSize).retry.Some?
              && FetchCompleted(s, call, reply, pageSize).retry.None?
  {
    if reply.Failed? && reply.status < 500 {
      var t := ErrorObject(false, StatusMessage(reply.status));
      assert LooksLikeNetworkError(t);
      if call.retryCount >= MaxRetries {
        assert FetchCompletedAsWritten(s, call, reply, pageSize) == Caught(s, call, t);
      }
    }
  }

  /** One completed attempt under the rule as written or under the corrected rule. */
  function Complete(asWritten: bool, s: HookState, call: FetchCall, reply: Reply<seq<Application>>,
                    pageSize: nat): (f: Fetched)
    ensures f.retry.Some? ==>
              && call.retryCount < MaxRetries
              && f.retry.value.call.retryCount == call.retryCount + 1
              && f.retry.value.delayMs == RetryUnitMs * (call.retryCount + 1)
  {
    if asWritten then FetchCompletedAsWritten(s, call, reply, pageSize)
    else FetchCompleted(s, call, reply, pageSize)
  }

  /** A chain of attempts answered by `replies` in turn: how many requests were made,
      the delays of the retries scheduled, and the final state. */
  datatype Run = Run(attempts: nat, delays: seq<nat>, state: HookState)

  function RunFetch(asWritten: bool, s: HookState, call: FetchCall, replies: seq<Reply<seq<Application>>>,
                    pageSize: nat): (r: Run)
    requires call.retryCount <= MaxRetries
    ensures r.attempts <= |replies|
    ensures r.attempts <= MaxRetries + 1 - call.retryCount
    ensures |r.delays| <= MaxRetries - call.retryCount
    ensures forall k :: 0 <= k < |r.delays| ==> r.delays[k] == RetryUnitMs * (call.retryCount + k + 1)
    decreases |replies|
  {
    if replies == [] then Run(0, [], s)
    else
      var f := Complete(asWritten, BeginFetch(s, call), call, replies[0], pageSize);
      match f.retry
      case None => Run(1, [], f.state)
      case Some(retry) =>
        var rest := RunFetch(asWritten, f.state, retry.call, replies[1..], pageSize);
        Run(1 + rest.attempts, [retry.delayMs] + rest.delays, rest.state)
  }

  /** Starting from the first attempt, at most three requests are made, and the
      retries wait 1000 ms and then 2000 ms, both for the code as written and for
      the corrected rule. */
  lemma AtMostThreeAttempts(asWritten: bool, s: HookState, pageNum: nat, reset: bool,
                            replies: seq<Reply<seq<Application>>>, pageSize: nat)
    ensures RunFetch(asWritten, s, FetchCall(pageNum, reset, 0), replies, pageSize).attempts <= 3
    ensures var d := RunFetch(asWritten, s, FetchCall(pageNum, reset, 0), replies, pageSize).delays;
            |d| <= 2 && (|d| >= 1 ==> d[0] == 1000) && (|d| == 2 ==> d[1] == 2000)
  {
  }

  /** The mount fetch fills the empty list with the first page, and more pages are
      offered exactly when it is full. */
  lemma InitialLoad(items: seq<Application>)
    ensures var s := FetchCompleted(BeginFetch(Initial(), FetchCall(1, true, 0)), FetchCall(1, true, 0),
                                    Succeeded(Parsed(items)), DefaultPageSize).state;
            && s.applications == items && s.page == 1 && !s.loading && s.error.None?
            && (s.hasMore <==> |items| == 6)
  {
  }

  /** Three 404 replies: the code as written makes all three requests, the corrected
      rule stops after the first. */
  lemma AsWrittenRetriesNotFoundTwice(s: HookState, body: Json<ErrorBody>)
    ensures var replies: seq<Reply<seq<Application>>> := [Failed(404, body), Failed(404, body), Failed(404, body)];
            && RunFetch(true, s, FetchCall(1, true, 0), replies, DefaultPageSize).attempts == 3
            && RunFetch(true, s, FetchCall(1, true, 0), replies, DefaultPageSize).delays == [1000, 2000]
            && RunFetch(false, s, FetchCall(1, true, 0), replies, DefaultPageSize).attempts == 1
  {
    var r: Reply<seq<Application>> := Failed(404, body);
    var c0, c1, c2 := FetchCall(1, true, 0), FetchCall(1, true, 1), FetchCall(1, true, 2);
    var f0 := Complete(true, BeginFetch(s, c0), c0, r, DefaultPageSize);
    assert f0.retry == Some(Retry(c1, 1000));
    var f1 := Complete(true, BeginFetch(f0.state, c1), c1, r, DefaultPageSize);
    assert f1.retry == Some(Retry(c2, 2000));
    var f2 := Complete(true, BeginFetch(f1.state, c2), c2, r, DefaultPageSize);
    assert f2.retry.None?;
    assert RunFetch(true, f1.state, c2, [r], DefaultPageSize) == Run(1, [], f2.state);
    assert [r, r][1..] == [r];
    assert RunFetch(true, f0.state, c1, [r, r], DefaultPageSize).attempts == 2;
    assert [r, r, r][1..] == [r, r];
  }

  /** What a call of `loadMore` or `refresh` does: the new state and the fetch it starts. */
  datatype Step = Step(state: HookState, fetch: Option<FetchCall>)

  /** `loadMore`: nothing while a page is loading or when no more pages exist;
      otherwise the next page is requested. */
  function LoadMore(s: HookState): (r: Step)
    ensures r.fetch.None? <==> s.loadingMore || !s.hasMore
    ensures r.fetch.None? ==> r.state == s
    ensures r.fetch.Some? ==>
              && r.state == s.(page := s.page + 1, loadingMore := true)
              && r.fetch.value == FetchCall(s.page + 1, false, 0)
  {
    if !s.loadingMore && s.hasMore then
      var call := FetchCall(s.page + 1, false, 0);
      Step(BeginFetch(s.(page := s.page + 1), call), Some(call))
    else Step(s, None)
  }

  /** `refresh`: back to page 1, reloading with `reset`. */
  function Refresh(s: HookState): (r: Step)
    ensures r.state == s.(page := 1, loading := true)
    ensures r.fetch == Some(FetchCall(1, true, 0))
  {
    var call := FetchCall(1, true, 0);
    Step(BeginFetch(s.(page := 1), call), Some(call))
  }

  /** While a further page is loading, another `loadMore` does nothing: a second request
      for the same page is never issued. */
  lemma {:induction false} LoadMoreOnceInFlight(s: HookState)
    ensures var first := LoadMore(s);
            first.fetch.Some? ==> LoadMore(first.state).fetch.None? && LoadMore(first.state).state == first.state
  {
  }

  /** A refresh's successful first page replaces the list, whatever was loaded before. */
  lemma RefreshReplaces(s: HookState, items: seq<Application>, pageSize: nat)
    ensures var st := Refresh(s);
            FetchCompleted(st.state, st.fetch.value, Succeeded(Parsed(items)), pageSize).state.applications == items
  {
  }

  /** The effect of one create, update or delete call: the new state and how its promise settles. */
  datatype Mutation<T> = Mutation(state: HookState, result: Settled<T>)

  /** The message a failed mutation records and rethrows; None for a usable success. */
  function FailureMessage<T>(reply: Reply<T>, fallback: string, readsBody: bool): (m: Option<string>)
    ensures m.None? <==> reply.Succeeded? && (reply.body.Parsed? || !readsBody)
    ensures reply.Failed? ==> m == Some(fallback)
    ensures reply.Rejected? ==> m == Some(MessageOr(reply.thrown, fallback))
    ensures readsBody && reply.Succeeded? && reply.body.Unparseable? ==>
              m == Some(MessageOr(reply.body.parseError, fallback))
  {
    match reply
    case Rejected(t) => Some(MessageOr(t, fallback))
    case Failed(_, _) => Some(fallback)
    case Succeeded(Unparseable(t)) => if readsBody then Some(MessageOr(t, fallback)) else None
    case Succeeded(Parsed(_)) => None
  }

  const CreateFailedMessage := "Failed to create application"
  const UpdateFailedMessage := "Failed to update application"
  const DeleteFailedMessage := "Failed to delete application"

  function Failure<T>(s: HookState, message: string): (m: Mutation<T>)
  {
    Mutation(s.(error := Some(message)), Threw(ErrorObject(false, message)))
  }

  /** `createApplication`: the new application is put first. */
  function CreateCompleted(s: HookState, reply: Reply<Application>): (m: Mutation<Application>)
    ensures m.result.Resolved? <==> reply.Succeeded? && reply.body.Parsed?
    ensures m.result.Resolved? ==>
              && m.result.value == reply.body.value
              && m.state == s.(applications := Prepend(reply.body.value, s.applications))
    ensures m.result.Threw? ==>
              && m.result.thrown.ErrorObject?
              && m.state == s.(error := Some(m.result.thrown.message))
              && Some(m.result.thrown.message) == FailureMessage(reply, CreateFailedMessage, true)
  {
    match FailureMessage(reply, CreateFailedMessage, true)
    case Some(message) => Failure(s, message)
    case None => Mutation(s.(applications := Prepend(reply.body.value, s.applications)), Resolved(reply.body.value))
  }

  /** `updateApplication`: the entry with the id becomes the server's value. */
  function UpdateCompleted(s: HookState, id: string, reply: Reply<Application>): (m: Mutation<Application>)
    ensures m.result.Resolved? <==> reply.Succeeded? && reply.body.Parsed?
    ensures m.result.Resolved? ==>
              && m.result.value == reply.body.value
              && m.state == s.(applications := ReplaceById(s.applications, ApplicationId, id, reply.body.value))
    ensures m.result.Threw? ==>
              && m.result.thrown.ErrorObject?
              && m.state == s.(error := Some(m.result.thrown.message))
              && Some(m.result.thrown.message) == FailureMessage(reply, UpdateFailedMessage, true)
  {
    match FailureMessage(reply, UpdateFailedMessage, true)
    case Some(message) => Failure(s, message)
    case None =>
      Mutation(s.(applications := ReplaceById(s.applications, ApplicationId, id, reply.body.value)),
               Resolved(reply.body.value))
  }

  /** `deleteApplication`: every entry with the id is removed; the body is not read. */
  function DeleteCompleted(s: HookState, id: string, reply: Reply<()>): (m: Mutation<()>)
    ensures m.result.Resolved? <==> reply.Succeeded?
    ensures m.result.Resolved? ==> m.state == s.(applications := RemoveById(s.applications, ApplicationId, id))
    ensures m.result.Threw? ==>
              && m.result.thrown.ErrorObject?
              && m.state == s.(error := Some(m.result.thrown.message))
              && Some(m.result.thrown.message) == FailureMessage(reply, DeleteFailedMessage, false)
  {
    match FailureMessage(reply, DeleteFailedMessage, false)
    case Some(message) => Failure(s, message)
    case None => Mutation(s.(applications := RemoveById(s.applications, ApplicationId, id)), Resolved(()))
  }

  /** Creating an application with a fresh id and then deleting it restores the list. */
  lemma CreateThenDeleteRestores(s: HookState, created: Application)
    requires Fresh(s.applications, ApplicationId, created.id)
    ensures var afterCreate := CreateCompleted(s, Succeeded(Parsed(created))).state;
            DeleteCompleted(afterCreate, created.id, Succeeded(Parsed(()))).state.applications == s.applications
  {
    RemoveUndoesPrepend(s.applications, ApplicationId, created);
  }
}

=== FILE: use_environments.dfy ===
/**
 * The `useEnvironments` hook: loading the list, and the list transition,
 * toast and rethrow that follow each create, update and delete request.
 */
module UseEnvironments {
  import opened Wrappers
  import opened Text
  import opened Http
  import opened ListOps
  import opened EnvironmentTypes

  /** The hook's React state. */
  datatype HookState = HookState(environments: seq<EnvironmentWithCounts>, loading: bool, error: Option<string>)

  datatype ToastKind = SuccessToast | ErrorToast

  /** A notification passed to `showToast`. */
  datatype Toast = Toast(kind: ToastKind, title: string, message: string)

  const FetchFailedMessage := "Failed to fetch environments"
  const LoadFailedMessage := "Failed to load environments"
  const CreateFailedMessage := "Failed to create environment"
  const UpdateFailedMessage := "Failed to update environment"
  const DeleteFailedMessage := "Failed to delete environment"
  const ConflictTitle := "Cannot delete environment"

  /** The state mounting or refreshing enters: None when `applicationId` is empty
      (nothing happens), otherwise loading with the error cleared. */
  function BeginFetch(s: HookState, applicationId: string): (r: Option<HookState>)
    ensures r.None? <==> applicationId == ""
    ensures r.Some? ==> r.value == s.(loading := true, error := None)
  {
    if applicationId == "" then None else Some(s.(loading := true, error := None))
  }

  /** A completed list fetch: the new state and the toast shown, if any. */
  datatype Loaded = Loaded(state: HookState, toast: Option<Toast>)

  /** `fetchEnvironments` after its request (`s` is the state `BeginFetch` produced). */
  function FetchCompleted(s: HookState, reply: Reply<seq<EnvironmentWithCounts>>): (r: Loaded)
    ensures !r.state.loading
    ensures reply.Succeeded? && reply.body.Parsed? ==>
              && r.state.environments == reply.body.value && r.toast.None? && r.state.error == s.error
    ensures reply.Failed? ==>
              && r.state.error == Some(FetchFailedMessage) && r.state.environments == s.environments
    ensures reply.Rejected? ==> r.state.error == Some(MessageOr(reply.thrown, LoadFailedMessage))
    ensures reply.Succeeded? && reply.body.Unparseable? ==>
              r.state.error == Some(MessageOr(reply.body.parseError, LoadFailedMessage))
    ensures r.toast.Some? <==> !(reply.Succeeded? && reply.body.Parsed?)
    ensures r.toast.Some? ==>
              && r.toast.value.kind == ErrorToast && r.toast.value.title == "Error"
              && r.state.error == Some(r.toast.value.message)
              && r.state.environments == s.environments
  {
    var failure: Option<Thrown> :=
      match reply
      case Rejected(t) => Some(t)
      case Failed(_, _) => Some(ErrorObject(false, FetchFailedMessage))
      case Succeeded(Unparseable(t)) => Some(t)
      case Succeeded(Parsed(_)) => None;
    match failure
    case None => Loaded(s.(environments := reply.body.value, loading := false), None)
    case Some(t) =>
      var message := MessageOr(t, LoadFailedMessage);
      Loaded(s.(error := Some(message), loading := false), Some(Toast(ErrorToast, "Error", message)))
  }

  /** The value a mutation's promise throws for a reply that is not a usable success.
      The body is read before the status is checked, so an unreadable body throws the
      parse error even for a non-ok status. */
  function ReplyFailure<T>(reply: Reply<T>, fallback: string): (t: Option<Thrown>)
    ensures t.None? <==> reply.Succeeded? && reply.body.Parsed?
    ensures reply.Failed? && reply.errorBody.Parsed? ==>
              t == Some(ErrorObject(false, ServerMessage(reply.errorBody.value, fallback)))
    ensures reply.Failed? && reply.errorBody.Unparseable? ==> t == Some(reply.errorBody.parseError)
    ensures reply.Succeeded? && reply.body.Unparseable? ==> t == Some(reply.body.parseError)
    ensures reply.Rejected? ==> t == Some(reply.thrown)
  {
    match reply
    case Rejected(thrown) => Some(thrown)
    case Failed(_, Unparseable(thrown)) => Some(thrown)
    case Failed(_, Parsed(body)) => Some(ErrorObject(false, ServerMessage(body, fallback)))
    case Succeeded(Unparseable(thrown)) => Some(thrown)
    case Succeeded(Parsed(_)) => None
  }

  /** The effect of one create, update or delete call: the list afterwards, the
      toast shown, and how the returned promise settles. */
  datatype Mutation<T> = Mutation(environments: seq<EnvironmentWithCounts>, toast: Toast, result: Settled<T>)

  /** `createEnvironment`: on success the server's environment is appended. */
  function CreateCompleted(envs: seq<EnvironmentWithCounts>, reply: Reply<EnvironmentWithCounts>)
    : (m: Mutation<EnvironmentWithCounts>)
    ensures m.result.Resolved? <==> reply.Succeeded? && reply.body.Parsed?
    ensures m.result.Resolved? ==>
              && m.result.value == reply.body.value
              && m.environments == Append(envs, reply.body.value)
              && m.toast == Toast(SuccessToast, "Environment created",
                                  reply.body.value.environment.name + " has been created successfully")
    ensures m.result.Threw? ==>
              && m.environments == envs
              && Some(m.result.thrown) == ReplyFailure(reply, CreateFailedMessage)
              && m.toast == Toast(ErrorToast, "Error", MessageOr(m.result.thrown, CreateFailedMessage))
  {
    match ReplyFailure(reply, CreateFailedMessage)
    case Some(t) => Mutation(envs, Toast(ErrorToast, "Error", MessageOr(t, CreateFailedMessage)), Threw(t))
    case None =>
      var created := reply.body.value;
      Mutation(Append(envs, created),
               Toast(SuccessToast, "Environment created", created.environment.name + " has been created successfully"),
               Resolved(created))
  }

  /** `updateEnvironment`: on success every entry with the id becomes the server's value. */
  function UpdateCompleted(envs: seq<EnvironmentWithCounts>, environmentId: string,
                           reply: Reply<EnvironmentWithCounts>): (m: Mutation<EnvironmentWithCounts>)
    ensures m.result.Resolved? <==> reply.Succeeded? && reply.body.Parsed?
    ensures m.result.Resolved? ==>
              && m.result.value == reply.body.value
              && m.environments == ReplaceById(envs, EnvironmentId, environmentId, reply.body.value)
              && m.toast.kind == SuccessToast
    ensures m.result.Threw? ==>
              && m.environments == envs
              && Some(m.result.thrown) == ReplyFailure(reply, UpdateFailedMessage)
              && m.toast == Toast(ErrorToast, "Error", MessageOr(m.result.thrown, UpdateFailedMessage))
  {
    match ReplyFailure(reply, UpdateFailedMessage)
    case Some(t) => Mutation(envs, Toast(ErrorToast, "Error", MessageOr(t, UpdateFailedMessage)), Threw(t))
    case None =>
      Mutation(ReplaceById(envs, EnvironmentId, environmentId, reply.body.value),
               Toast(SuccessToast, "Environment updated", "Environment has been updated successfully"),
               Resolved(reply.body.value))
  }

  /** The error toast's title for a failed delete: a resource conflict is called out. */
  function DeleteFailureTitle(message: string): (title: string)
    ensures title == ConflictTitle <==> Contains(message, "attached resources")
    ensures title == "Error" <==> !Contains(message, "attached resources")
  {
    if Contains(message, "attached resources") then ConflictTitle else "Error"
  }

  /** `deleteEnvironment`: on success every entry with the id is removed. */
  function DeleteCompleted(envs: seq<EnvironmentWithCounts>, environmentId: string, reply: Reply<()>)
    : (m: Mutation<bool>)
    ensures m.result.Resolved? <==> reply.Succeeded? && reply.body.Parsed?
    ensures m.result.Resolved? ==>
              && m.result.value
              && m.environments == RemoveById(envs, EnvironmentId, environmentId)
              && m.toast.kind == SuccessToast
    ensures m.result.Threw? ==>
              && m.environments == envs
              && Some(m.result.thrown) == ReplyFailure(reply, DeleteFailedMessage)
    ensures m.result.Threw? ==>
              var message := MessageOr(m.result.thrown, DeleteFailedMessage);
              m.toast == Toast(ErrorToast, DeleteFailureTitle(message), message)
  {
    match ReplyFailure(reply, DeleteFailedMessage)
    case Some(t) =>
      var message := MessageOr(t, DeleteFailedMessage);
      Mutation(envs, Toast(ErrorToast, DeleteFailureTitle(message), message), Threw(t))
    case None =>
      Mutation(RemoveById(envs, EnvironmentId, environmentId),
               Toast(SuccessToast, "Environment deleted", "Environment has been deleted successfully"),
               Resolved(true))
  }

  /** A non-ok reply's message is the server's non-empty `error`, else the fixed default,
      and the list is left as it was. */
  lemma {:induction false} NonOkMessage(envs: seq<EnvironmentWithCounts>, id: string, status: nat, body: ErrorBody)
    ensures var m := DeleteCompleted(envs, id, Failed(status, Parsed(body)));
            m.environments == envs && m.result.Threw? &&
            m.result.thrown.message == (if Truthy(body.error) then body.error.value else DeleteFailedMessage)
    ensures var m := CreateCompleted(envs, Failed(status, Parsed(body)));
            m.environments == envs && m.result.Threw? &&
            m.result.thrown.message == (if Truthy(body.error) then body.error.value else CreateFailedMessage)
  {
    assert ReplyFailure<()>(Failed(status, Parsed(body)), DeleteFailedMessage)
        == Some(ErrorObject(false, ServerMessage(body, DeleteFailedMessage)));
    assert ReplyFailure<EnvironmentWithCounts>(Failed(status, Parsed(body)), CreateFailedMessage)
        == Some(ErrorObject(false, ServerMessage(body, CreateFailedMessage)));
  }

  /** The server's conflict message for an environment with secrets or variables
      attached is toasted as "Cannot delete environment". */
  lemma ConflictReplyIsCalledOut(envs: seq<EnvironmentWithCounts>, id: string, status: nat,
                                 before: string, after: string)
    ensures var message := before + "attached resources" + after;
            DeleteCompleted(envs, id, Failed(status, Parsed(ErrorBody(Some(message))))).toast.title == ConflictTitle
  {
    ContainsInfix(before, "attached resources", after);
  }

  /** Creating an environment with a fresh id and then deleting it restores the list. */
  lemma CreateThenDeleteRestores(envs: seq<EnvironmentWithCounts>, created: EnvironmentWithCounts)
    requires Fresh(envs, EnvironmentId, EnvironmentId(created))
    ensures var afterCreate := CreateCompleted(envs, Succeeded(Parsed(created))).environments;
            DeleteCompleted(afterCreate, EnvironmentId(created), Succeeded(Parsed(()))).environments == envs
  {
    RemoveUndoesAppend(envs, EnvironmentId, created);
  }
}

=== FILE: wrappers.dfy ===
/** The optional value that stands for a JavaScript `undefined` or `null`. */
module Wrappers {

  datatype Option<+T> = None | Some(value: T) {

    /** Returns the value held in Some, or `default` when None. */
    function GetOr(default: T): T
    {
      match this
      case Some(v) => v
      case None => default
    }
  }

  /** JavaScript truthiness of an optional string: present and not empty. */
  predicate Truthy(s: Option<string>)
  {
    s.Some? && s.value != ""
  }
}
